=== FILE: README.md ===
# Webserv core, modelled in Dafny

This project models four parts of the Webserv HTTP server (C++98):

- **The request parser `http_msg::HttpReq`.** It is buffer-complete and works in three phases over an immutable text, with a cursor that only moves forward:
  - the request line: three tokens, with the method taken from a fixed table;
  - the header fields: the name is cut at the first colon and must be free of white space, the values are comma-separated and trimmed, a repeated name has its values folded in order, a `Host` entry is required, and `Transfer-Encoding` raises the chunked flag;
  - the body, whose rule depends on the method.

  A phase that throws leaves the object as it was at the throw. `parse` catches the exception, records status 400 and returns false.
- **The setters of the response builder `HTTP::Response`.**
  - status code text and reason phrase;
  - `Content-Type` from the extension after the last `.`;
  - `Content-Length`, left out for a length of zero;
  - `Connection`;
  - the body;
  - the `Date` value in the IMF-fixdate shape of section 7.1.1.1 of RFC 7231.
- **The reader task `async::FileReader::task`.** It is a step function over the task status (BEGIN, AGAIN, DONE, or an error code). The open, the processor's observations and the timeout check are inputs to each step.
- **The writer task `async::FileWriter::task`.** It is the same kind of step function. Its constructors keep their own copy of the content to write.

## Modules

| file | module | contents |
|---|---|---|
| outcomes.dfy | `Outcomes` | `Option`, `Result`, and `Outcome`. `Outcome` is the state a C++ member function leaves, plus the exception when one escaped. |
| strings.dfy | `Strings` | The string helpers the parser calls, with contracts that pin them down: `strBeforeSep`, `split`, `strtrim`, `hasSpace`, `find`, `find_last_of`, and C-string construction. |
| decimal.dfy | `Decimal` | `uintToStr`/`toStr` and their inverse. |
| http_request.dfy | `HttpRequest` | The parser: each phase, `parse`, and the getters. |
| request_format.dfy | `RequestFormat` | Requests written out from their parts, and the round trip of the parser over them. |
| comma_split.dfy | `CommaSplit` | The values of a header line, described independently through `split`, and the proof that the parser computes them for every line. |
| request_cases.dfy | `RequestCases` | Concrete requests: edge cases of the comma loop, a refused method, and folding. |
| http_response.dfy | `HttpResponse` | The setters, and the date format with its inverse. |
| async_task.dfy | `AsyncTask` | Status codes and the observations a task makes of the descriptor layer. |
| file_reader.dfy | `FileReader` | `FileReader` constructors, `task`, and runs of several calls. |
| file_writer.dfy | `FileWriter` | `FileWriter` constructors, copying, `task`, and the test driver loop. |

## Where the model follows the code rather than the intended behaviour

- **Blank values in the comma loop are kept.** The loop of `parseHeader` tests a segment before trimming it, so a blank segment (`a, ,b`) is kept as an empty value. An empty segment (`a,,b,c`) ends the loop, and all the rest of the line, commas included, becomes one value. See `RequestCases.BlankValueKept` and `RequestCases.EmptySegmentStops`.
- **The POST body check looks only at the last `\r`.** It checks that the last `\r` sits two characters before the end. The final character itself is not checked.
- **`setStatus` accepts codes of four or more digits.** The digit guard does not stop them. The status text becomes the code's last three digits, and only the table lookup can refuse the code (`HttpResponse.SetStatusLongCode`).
- **Only DONE is terminal for the reader.** A reader whose status is an error code goes on polling (`FileReader.ErrorNotTerminal`). After a failed open that sets an error code, it calls through a processor that does not exist (`FileReader.FaultAfterFailedOpen`).
- **The writer ignores both the open result and `checkTimeout()`.**
- **The response header is an insertion log.** The intended behaviour is presumably "last write wins", but the header container's `insert` is not shown. The model therefore keeps the header as the sequence of (name, value) pairs handed to it.
- **`parseStartLine` reads `uri` and `version` from `tokens`.** Lines 59-60 refer to an undeclared `components`; the model takes tokens 1 and 2.

## Model

| member | source | states |
|---|---|---|
| HttpRequest.NewHttpReq | http_converter/HttpReq.cpp:11-14 | The constructor keeps the text and puts the cursor at the start. No method is set, the status is 0 and the request is not chunked. The URI, version, header and body start empty. |
| HttpRequest.ScanMethods | http_converter/HttpReq.cpp:47-54 | The scan returns an index whose method name equals the token, or reports that no entry of the table equals it. |
| HttpRequest.ParseStartLine | http_converter/HttpReq.cpp:34-62 | The line runs up to the next CRLF, and the cursor always moves past it. An empty line, or one that begins with a space, throws. A line without exactly 3 tokens throws and reports the count. A first token outside the method table throws "not implemented" with that token. On success the line is the method name, URI and version joined by single spaces. On every throw the method, URI and version are unchanged. |
| HttpRequest.SkipSpace | http_converter/HttpReq.cpp:118-119 | The cursor moves past exactly the white space in front of it. |
| HttpRequest.CommaValues | http_converter/HttpReq.cpp:120-126 | Every value collected is trimmed of spaces and holds no comma. Which values are collected is stated by `CommaSplit.CommaValuesSplit`. |
| HttpRequest.ParseFieldLine | http_converter/HttpReq.cpp:112-129 | An accepted name is non-empty, free of white space, and the text before the line's first colon. A refused line has no colon, or has an empty name or one with white space before its first colon. Every value is trimmed. |
| HttpRequest.FoldField | http_converter/HttpReq.cpp:131-138 | A new name gets its own entry. A name already present gets the new values appended after its old ones. Every other entry is untouched. |
| HttpRequest.HeaderLoop | http_converter/HttpReq.cpp:104-139 | The loop only moves the cursor forward and only adds names. Apart from the cursor and the header, it changes nothing. It throws only for a malformed field. A non-empty line that the field parser refuses makes it throw that parser's error, with the cursor past the line. |
| HttpRequest.FindKey | http_converter/HttpReq.cpp:81-90 | The lookup finds a name exactly when it is in the header, and returns its values. |
| HttpRequest.CheckHost | http_converter/HttpReq.cpp:64-70 | `checkHost` passes exactly when `Host` is present with at least one value, and changes nothing. |
| HttpRequest.CheckChunk | http_converter/HttpReq.cpp:72-79 | The chunked flag is set exactly when it was already set or `Transfer-Encoding` is present. Nothing else changes. |
| HttpRequest.ParseHeader | http_converter/HttpReq.cpp:93-144 | A throw of the line loop is passed on as it is. Past the loop, the header and the cursor are the ones the loop left, and the only other throw is the missing `Host`. On success `Host` has a value, and the chunked flag reflects `Transfer-Encoding`. The phase changes only the cursor, the header and the flag. |
| HttpRequest.ParseBody | http_converter/HttpReq.cpp:146-165 | GET and DELETE succeed exactly when the cursor is at the end of the text. POST succeeds exactly when the last `\r` is two characters before the end. The POST body is the text between the cursor and that `\r`. When the cursor is already past that `\r`, the unsigned count wraps around and the body is the rest of the text. A throw changes nothing. |
| HttpRequest.RunPhases | http_converter/HttpReq.cpp:19-25 | The request line, the header and the body are parsed in that order, each phase on the state the one before left. The first throw ends the run, and its state is the result. The source text and the status are never changed. |
| HttpRequest.Parse | http_converter/HttpReq.cpp:17-32 | `parse` returns true exactly when all three phases complete. The request is then the one the three phases built in turn, with its status untouched. On failure the request is the state the throwing phase left, with status 400. |
| HttpRequest.GetMethod | http_converter/HttpReq.cpp:168-171 | The result is -1 exactly when no method was recognised. Otherwise it is the table index of the method's name. |
| HttpRequest.GetHeaderVal | http_converter/HttpReq.cpp:188-191 | The lookup finds a name exactly when it is in the header, and returns its values. |
| Strings.StrBeforeSepSpec | http_converter/HttpReq.cpp:37 | The text returned is followed by the first separator after the cursor. The cursor stays put exactly when no separator follows. |
| Strings.JoinSplit | http_converter/HttpReq.cpp:42-44 | Joining the tokens of a split with the separator gives back the line. |
| Strings.SplitJoin | http_converter/HttpReq.cpp:42-44 | Splitting a join of separator-free tokens gives back the tokens. |
| Strings.SplitCount | http_converter/HttpReq.cpp:42-44 | A split yields one more token than there are separators. |
| Strings.TrimPadded | http_converter/HttpReq.cpp:125 | Trimming spaces off a padded word gives back the word. |
| Strings.FindLastOf | http_converter/HttpReq.cpp:157-158 | The result is the last position holding the character, and `npos` exactly when the character does not occur. |
| RequestFormat.FoldFieldsValues | http_converter/HttpReq.cpp:131-138 | After folding a sequence of fields, each name present holds its old values followed by every value given for it, in order. |
| RequestFormat.CommaValuesJoin | http_converter/HttpReq.cpp:120-126 | On values written `v1, v2, ..., vn`, the comma loop returns all values but the last and stops right before the last. |
| RequestFormat.FieldLineRoundTrip | http_converter/HttpReq.cpp:112-129 | A well-formed header line parses back into the name and values it was written from. |
| RequestFormat.HeaderLoopRoundTrip | http_converter/HttpReq.cpp:104-139 | Well-formed header lines, followed by an empty line, fold in order. The cursor ends past the empty line. |
| RequestFormat.RequestLineRoundTrip | http_converter/HttpReq.cpp:34-62 | A request line written from a method and two space-free tokens reads back into them. |
| RequestFormat.HeaderPhaseRoundTrip | http_converter/HttpReq.cpp:93-144 | Over well-formed lines that name a host, the header phase folds the lines. It raises the chunked flag exactly when a `Transfer-Encoding` line is present. |
| RequestFormat.BodyPhaseRoundTrip | http_converter/HttpReq.cpp:146-165 | A written body reads back: for POST, the text before the final CRLF; for GET and DELETE, nothing. |
| RequestFormat.RequestRoundTrip | http_converter/HttpReq.cpp:17-32 | Parsing a well-formed request succeeds with status untouched. It recovers the method, URI, version and body, folds the header lines, and sets the chunked flag exactly when `Transfer-Encoding` is present. |
| CommaSplit.CommaValuesSplit | http_converter/HttpReq.cpp:120-126 | For every line and starting point, the comma loop collects the trimmed pieces of `split(rest, ',')` that a comma follows, up to the first empty one. It stops where the remaining pieces begin. |
| CommaSplit.FieldLineValues | http_converter/HttpReq.cpp:112-129 | Take any line made of a name with no white space, a colon, white space, and a value text `v`. It parses to that name. Its values are the collected pieces of `split(v, ',')`, followed by the trimmed remainder when it is not blank. |
| CommaSplit.AcceptedLineValues | http_converter/HttpReq.cpp:112-129 | The values of every line the field parser accepts are given by that reference. It is read from the text after the white space that follows the colon. |
| RequestFormat.BadNameRefused | http_converter/HttpReq.cpp:112-115 | A line whose name before the first colon is empty or holds white space is refused, with that name. |
| RequestFormat.NoColonRefused | http_converter/HttpReq.cpp:112-115 | A line without a colon is refused. |
| RequestFormat.HeaderLoopRefuses | http_converter/HttpReq.cpp:104-115 | After any number of well-formed lines, the line loop throws at a non-empty line the field parser refuses. |
| RequestFormat.MalformedFieldRejected | http_converter/HttpReq.cpp:17-32 | A request whose header block reaches such a line makes `parse` return false with status 400. |
| RequestCases.ParsedValues | http_converter/HttpReq.cpp:131-138 | In a parsed well-formed request, every name used holds all its values in the order written. |
| RequestCases.AcceptFolds | http_converter/HttpReq.cpp:131-138 | Two `Accept` lines fold into one sequence of three values, in order. |
| RequestCases.BlankValueKept | http_converter/HttpReq.cpp:120-129 | A blank segment between commas is kept, as an empty value. |
| RequestCases.EmptySegmentStops | http_converter/HttpReq.cpp:120-129 | An empty segment ends the comma loop. The rest of the line, commas included, becomes one value. |
| RequestCases.PatchRejected | http_converter/HttpReq.cpp:47-56 | `PATCH` is refused as not implemented, carrying the token. No method is set, and the parse reports 400. |
| RequestCases.TwoTokensRejected | http_converter/HttpReq.cpp:42-44 | A request line with two tokens is refused with the count 2, and the parse reports 400. |
| HttpResponse.SetValue | srcs/HTTP/Response/ResponseSetter.cpp:7-10 | Exactly one (name, value) pair is handed to the header, after the earlier ones. Nothing else changes. |
| HttpResponse.DigitLoop | srcs/HTTP/Response/ResponseSetter.cpp:42-47 | The terminator stays in place and `i` never passes the front. The loop stops with digits left over only when it has run off the front. |
| HttpResponse.GuardNeverFires | srcs/HTTP/Response/ResponseSetter.cpp:42-49 | After the digit loop, digits left over (`temp != 0`) imply that `i` has run off the front. The overflow guard therefore never fires. |
| HttpResponse.DigitLoopThree | srcs/HTTP/Response/ResponseSetter.cpp:42-47 | A code of three or more digits fills all three places with its last three digits. |
| HttpResponse.StatusText | srcs/HTTP/Response/ResponseSetter.cpp:42-50 | A code from 100 to 999 becomes its own 3-digit decimal text. A longer code becomes its last three digits. A shorter code is preceded by the bytes the loop left unwritten. |
| HttpResponse.SetStatus | srcs/HTTP/Response/ResponseSetter.cpp:34-57 | A negative code throws with nothing changed. The call succeeds exactly when the code is non-negative and in the table, and the reason phrase is then the table's. A code missing from the table throws with the status text already overwritten. |
| HttpResponse.SetStatusThreeDigits | srcs/HTTP/Response/ResponseSetter.cpp:42-56 | For a tabled code from 100 to 999, the status text has 3 digits, reads back as the code, and the reason phrase is the table's. |
| HttpResponse.SetStatusLongCode | srcs/HTTP/Response/ResponseSetter.cpp:43-56 | A code of 1000 or more passes the digit guard. The table alone decides success, and the text reads back as the code modulo 1000. |
| HttpResponse.Extension | srcs/HTTP/Response/ResponseSetter.cpp:68-71 | The extension exists exactly when the path has a `.`. It is the `.`-free text after the last `.`. |
| HttpResponse.SetContentType | srcs/HTTP/Response/ResponseSetter.cpp:66-80 | A path without `.` changes nothing. Otherwise one `Content-Type` pair is added: the table's type for the extension, or `application/octet-stream`. |
| HttpResponse.SetContentLength | srcs/HTTP/Response/ResponseSetter.cpp:88-92 | A zero length adds nothing. A positive length adds one `Content-Length` pair of digits that read back as the length. |
| HttpResponse.SetBodyContentLength | srcs/HTTP/Response/ResponseSetter.cpp:82-86 | The same rule applies to the length of the stored body. |
| HttpResponse.SetConnection | srcs/HTTP/Response/ResponseSetter.cpp:94-100 | One `Connection` pair is added. It is `keep-alive` exactly for a persistent connection and `close` exactly otherwise. |
| HttpResponse.SetBody | srcs/HTTP/Response/ResponseSetter.cpp:102-105 | The body is replaced, and nothing else changes. |
| HttpResponse.SetContent | srcs/HTTP/Response/ResponseSetter.cpp:59-64 | The body becomes the content, and the status fields are unchanged. When the path has a `.`, the first pair added is `Content-Type`, carrying the table's type for the extension or `application/octet-stream`. Without a `.`, no type pair is added. A `Content-Length` pair follows exactly when the content is non-empty, and it reads back as the body's length. |
| HttpResponse.TwoDigits | srcs/HTTP/Response/ResponseSetter.cpp:25 | `toStr(n / 10, n % 10)` is two digits that read back as `n`. |
| HttpResponse.FormatDate | srcs/HTTP/Response/ResponseSetter.cpp:17-31 | The date opens with the day name and `, `, has the month name between spaces at positions 8-10, and ends in ` GMT`. The full layout, read back field by field, is pinned by `HttpResponse.DateRoundTrip`. |
| HttpResponse.SetDate | srcs/HTTP/Response/ResponseSetter.cpp:12-32 | One `Date` pair holding the formatted time is added, and nothing else changes. |
| HttpResponse.DateRoundTrip | srcs/HTTP/Response/ResponseSetter.cpp:17-31 | The `Date` text reads back into the weekday, day, month, year, hour, minute and second it was formatted from. |
| HttpResponse.NameIndex | srcs/HTTP/Response/ResponseSetter.cpp:17-21 | The day and month names are distinct, so each name is found at the index it was taken from. |
| FileReader.FromDescriptor | srcs/async/FileIOProcessor/FileReader.cpp:6-9 | A reader built on a descriptor starts at BEGIN, with no processor, nothing read, and the FIFO flag it was given. |
| FileReader.FromPath | srcs/async/FileIOProcessor/FileReader.cpp:11-14 | A reader built on a path starts fresh and is never a FIFO. |
| FileReader.Poll | srcs/async/FileIOProcessor/FileReader.cpp:40-56 | The timeout is renewed at most once, and only on activity. On expiry nothing is read. A closed file ends the read after taking over the last bytes. Any other stat leaves the status as it was. |
| FileReader.Task | srcs/async/FileIOProcessor/FileReader.cpp:20-57 | At DONE nothing changes. A failed open returns at once and creates no processor. A successful open creates the processor on the descriptor the reader was built around, or on the one opened for its path. It reaches DONE at once for a closed regular file. The call faults exactly when it needs a missing processor. The buffer is only appended to. |
| FileReader.StatDecides | srcs/async/FileIOProcessor/FileReader.cpp:44-56 | On a call that reaches the read, `ERROR_FILECLOSED` gives DONE and the last bytes. Any other stat leaves the status where the call found it. |
| FileReader.ExpiryStops | srcs/async/FileIOProcessor/FileReader.cpp:42-43 | On expiry the call returns the status the timeout check left, with nothing read. |
| FileReader.EmptyFileDone | srcs/async/FileIOProcessor/FileReader.cpp:28-37 | A zero-byte regular file opened by path reports DONE on the first call, with nothing read. |
| FileReader.ErrorNotTerminal | srcs/async/FileIOProcessor/FileReader.cpp:22-23 | Only DONE is checked. A reader in an error state still polls, and a closed file turns the error into DONE. |
| FileReader.Run | srcs/async/FileIOProcessor/FileReader.cpp:20-57 | Successive calls of `task()` never change the timeout, the target or the FIFO flag. They renew the deadline at most once per call, and the only fault is a call through a missing processor. |
| FileReader.RunDone | srcs/async/FileIOProcessor/FileReader.cpp:22-23 | Any number of calls after DONE change nothing. |
| FileReader.RunBufferGrows | srcs/async/FileIOProcessor/FileReader.cpp:44-55 | Over any run, what was read is only appended to. |
| FileReader.RunNeverFaults | srcs/async/FileIOProcessor/FileReader.cpp:24-41 | When failed opens leave the status at BEGIN, no run from a consistent reader ever calls through a missing processor. |
| FileReader.FaultAfterFailedOpen | srcs/async/FileIOProcessor/FileReader.cpp:24-40 | When a failed open sets an error code instead, the next call reaches the processor that was never created. |
| FileWriter.Default | srcs/async/FileIOProcessor/FileWriter.cpp:6-8 | The default writer starts at BEGIN, with nothing to write. |
| FileWriter.FromDescriptor | srcs/async/FileIOProcessor/FileWriter.cpp:20-24 | The writer keeps its own copy of the content and starts at BEGIN. |
| FileWriter.FromPath | srcs/async/FileIOProcessor/FileWriter.cpp:26-30 | The writer keeps its own copy of the content and starts at BEGIN. |
| FileWriter.CopyAsWritten | srcs/async/FileIOProcessor/FileWriter.cpp:10-12 | The copy has the original's status and processor but empty content. |
| FileWriter.AssignAsWritten | srcs/async/FileIOProcessor/FileWriter.cpp:14-18 | After assignment the target has the original's status and processor but keeps its own content. |
| FileWriter.Task | srcs/async/FileIOProcessor/FileWriter.cpp:36-53 | At OK nothing changes. From BEGIN, the stored content goes to a new processor, whatever the open reported. After a successful open, that processor writes to the descriptor the writer was built around, or to the one opened for its path. The content is never changed. When the timeout check does not set OK, the status becomes OK exactly when the processor reports the write done. |
| FileWriter.TimeoutIgnored | srcs/async/FileIOProcessor/FileWriter.cpp:48 | When the timeout check leaves the status alone, an expired deadline gives the same result as an unexpired one. |
| FileWriter.TwoCodes | srcs/async/FileIOProcessor/FileWriter.cpp:36-53 | From BEGIN or AGAIN, a call returns only OK or AGAIN, and OK exactly when the write is done. |
| FileWriter.Drive | test/testsrcs/test_asyncfilewriter.cpp:18-27 | The driver loop stops at OK after at least one call, and at most one call per observation. Any code other than OK and AGAIN is reported as impossible. When the observations run out after at least one call, the writer is at AGAIN. The content is never touched. |
| FileWriter.FirstDone | test/testsrcs/test_asyncfilewriter.cpp:18-27 | This is the first call at which the processor reports the write done; none before it did. |
| FileWriter.DriveFinishes | test/testsrcs/test_asyncfilewriter.cpp:18-27 | Suppose every timeout check leaves the status alone. Then the driver loop never meets an impossible code and never crashes. It stops after the first call whose write is done, with the processor holding the stored content, and is still pending when no such call comes. |
| FileWriter.FirstCallWritesContent | srcs/async/FileIOProcessor/FileWriter.cpp:40-46 | A fresh writer's first call hands its processor exactly the content it was built with. |
| FileWriter.CopyLosesContent | srcs/async/FileIOProcessor/FileWriter.cpp:10-12 | A copy of a writer holding "abc" writes the empty string. |
| FileWriter.AssignLosesContent | srcs/async/FileIOProcessor/FileWriter.cpp:14-18 | A default writer assigned from one holding "abc" writes the empty string. |
| FileWriter.Copy | srcs/async/FileIOProcessor/FileWriter.cpp:10-12 | The corrected copy keeps the content as well as the status and processor. |
| FileWriter.Assign | srcs/async/FileIOProcessor/FileWriter.cpp:14-18 | The corrected assignment takes the content as well as the status and processor. |
| FileWriter.CopyBehavesAlike | srcs/async/FileIOProcessor/FileWriter.cpp:10-18 | With the content copied, a copy or an assigned-to writer behaves exactly like the original on every call. |

## Left out

- **Code this model does not include.** The bodies of `strBeforeSep`, `split`, `strtrim`, `hasSpace` and `uintToStr`/`toStr` are not part of this model. `Strings` and `Decimal` give each of them a definition and a contract. The assumptions are:
  - `strBeforeSep` moves the cursor past the separator and returns `""` when none follows;
  - `split` keeps empty fields;
  - `toStr(a, b)` concatenates the texts of `a` and `b`;
  - `strtrim(s, " ")` trims only `' '`, from both ends;
  - `hasSpace` is `std::isspace` over the name: space, tab, line feed, vertical tab, form feed or carriage return;
  - `HttpReqException`, which `checkHost` throws, derives from `std::exception`. `parse()`'s `catch (std::exception &)` then turns a missing `Host` into `false` with status 400, as it does for every other throw.
- **`openFdByPath`** is not part of this model. It is taken to leave `_fd` alone for a task built around a descriptor, and to set `_fd` to the descriptor it opened for a path.
- **`status.hpp` and the `FileIOProcessor` constructors** are not part of this model. `status::OK_BEGIN` and `status::BEGIN` are taken to be the same code, as are `OK_AGAIN` and `AGAIN`, and `OK_DONE` and `OK`. Every constructor of the base class is taken to set the status to BEGIN. The writer depends on this: if its base constructor left any other code, `FileWriter::task` would never open, and its call to `_processor->task()` would go through a null pointer.
- **`kMethodStr`** is taken to be `GET`, `POST`, `DELETE`, in that order.
- **The contents of `STATUS_CODE` and `MIME_TYPE`** are parameters.
- **The header container's `insert`** is not modelled. Its repeated-name rule is unknown.
- **`time` and `gmtime`:** `setDate` takes the broken-down time as a parameter.
- **Server startup (`srcs/HTTP/Server/Server.cpp`).** Configuration parsing, logger set-up and error-page clean-up are glue over code this model does not include.
- **`includes/CGI/const_values.hpp`** holds only `extern` declarations, with no logic.
- **`std::cerr` logging** in `parse` is left out.
- **The request getters:** `getUri`, `getVersion`, `getHeader` and `getBody` are plain field reads of the state.
- **`FileIOProcessor` and `SingleIOProcessor` internals.** This covers descriptors, `open`, reads, writes, event counting and deadlines. Each call of `task()` receives what they report: the open result, `isFdClosed`, `eventCount`, `checkTimeout` with the status it leaves, `stat`, `writeDone`, and the bytes `getReadBuf` hands over. The deadline is kept only as a count of renewals.
- **The copy of the base class.** A copy or assignment is modelled as taking the base-class part as a whole.
- HttpResponse.StatusText: for codes below 100, the three bytes the digit loop leaves unwritten are indeterminate in C++. They are a parameter, and the contract speaks about them only when they hold no NUL.
- HttpResponse.DateRoundTrip: covers years from 0 on (`tm_year >= -1900`), since `toStr` adds a sign to negative years.
- FileWriter.Drive: the driver loop at test_asyncfilewriter.cpp:18-27 is unbounded. The model drives it over a finite sequence of observations, one per call, and reports the writer as pending when they run out.
- FileWriter.DriveFinishes: holds only when every timeout check leaves the status alone. A check that writes an error code makes `task()` return it, and the driver loop then throws "Impossible return code".
- FileReader.RunBufferGrows: rests on the assumption that `getReadBuf` appends what the processor read to `_buffer` and does not replace it. The same assumption underlies the "only appended to" clause of `FileReader.Task` and `FileReader.Poll`. `getReadBuf`'s body is not part of this model.
- **`str_map_t`** is taken to be a `std::map` keyed by name. The model keeps the request header as a Dafny map from name to value sequence. The order `findKey` scans in does not affect any result.
- FileWriter.TwoCodes: holds only when the unseen timeout check leaves the status alone. A check that writes an error code makes the writer return that code.
- RequestFormat.RequestRoundTrip: covers header values that are non-empty, trimmed, and free of commas, CR and NUL. Those are the values that survive the comma loop unchanged.

## Findings

| source | as written | input that shows it | evidently intended | confidence | as-written member | corrected member |
|---|---|---|---|---|---|---|
| srcs/async/FileIOProcessor/FileWriter.cpp:10-12 | The copy constructor copies only the base class, so the copy's `_content` is empty. | A copy of `FileWriter(0, "out", "abc")` before its first `task()` | The copy writes "abc" like the original | medium, not executed | FileWriter.CopyAsWritten, FileWriter.CopyLosesContent | FileWriter.Copy, FileWriter.CopyBehavesAlike |
| srcs/async/FileIOProcessor/FileWriter.cpp:14-18 | `operator=` assigns only the base class, so the target keeps its old `_content`. | A default `FileWriter` assigned from `FileWriter(0, "out", "abc")` | The target writes "abc" | medium, not executed | FileWriter.AssignAsWritten, FileWriter.AssignLosesContent | FileWriter.Assign, FileWriter.CopyBehavesAlike |

=== FILE: async_task.dfy ===
/** What the file tasks share: their status codes and the observations they
    make of the descriptor layer beneath them (`FileIOProcessor` and
    `SingleIOProcessor`), whose internals are not part of this model. */
module AsyncTask {

  /** The `status::` codes a task reports: `OK_BEGIN`/`BEGIN`,
      `OK_AGAIN`/`AGAIN`, `OK_DONE`/`OK`, and every other code (the error
      codes the base class may set). */
  datatype Status = Begin | Again | Done | Error(code: int)

  /** What the task was built around: a descriptor it was handed, or a path
      it opens itself. */
  datatype Target = Descriptor(fd: int) | Path(path: string)

  /** The result of `openFdByPath`: the descriptor it opened, or a failure
      after which the base class has left the task's status at `after`. */
  datatype OpenResult = Opened(fd: int) | OpenFailed(after: Status)

  /** The descriptor `_fd` holds once `openFdByPath` succeeds: the one the
      task was built around, or, for a path, the one it opened. */
  function OpenedFd(t: Target, newFd: int): (fd: int)
    ensures t.Descriptor? ==> fd == t.fd
    ensures t.Path? ==> fd == newFd
  {
    match t
    case Descriptor(given) => given
    case Path(_) => newFd
  }

  /** The result of `checkTimeout()`: not expired, or expired with the status
      the base class leaves behind (unchanged, or an error code). */
  datatype TimeoutCheck = InTime | Expired(after: Status)

  /** The one fault the step functions can reach: a member call through a
      processor that was never created. */
  datatype Fault = NullProcessor
}

=== FILE: comma_split.dfy ===
/** What the values of a header line are, described through `split` rather
    than through the `strBeforeSep` loop `parseHeader` runs: the comma-separated
    pieces, trimmed, up to the first empty piece a comma follows, then the
    trimmed remainder of the line when it is not blank. The loop and the field
    parser agree with this description on every input. */
module CommaSplit {
  import opened Outcomes
  import opened Strings
  import opened HttpRequest

  /** The comma loop read off the pieces of a split. A piece counts only when
      a comma follows it; the first empty one stops the loop and its comma is
      consumed. Returns the trimmed pieces collected and the pieces left. */
  function CollectPieces(pieces: seq<string>): (r: (seq<string>, seq<string>))
    requires |pieces| >= 1
    ensures 1 <= |r.1| <= |pieces| && r.1 == pieces[|pieces| - |r.1|..]
    ensures |r.0| + |r.1| <= |pieces|
  {
    if |pieces| == 1 then ([], pieces)
    else if pieces[0] == [] then ([], pieces[1..])
    else
      var more := CollectPieces(pieces[1..]);
      ([Trim(pieces[0])] + more.0, more.1)
  }

  /** The values a header line carries when `v` is the text after its colon
      and the white space that follows the colon. */
  function ValuesOf(v: string): seq<string>
  {
    var c := CollectPieces(Split(v, ','));
    var rest := Trim(CStr(Join(c.1, ",")));
    c.0 + if rest != [] then [rest] else []
  }

  /** Splitting at the first occurrence of the separator: the text before it,
      then the split of the text after it. */
  lemma {:induction false} SplitAtFirst(s: string, c: char, p: nat)
    requires p < |s| && s[p] == c && c !in s[..p]
    ensures Split(s, c) == [s[..p]] + Split(s[p + 1..], c)
    decreases p
  {
    if p > 0 {
      assert s[0] != c by { assert s[0] == s[..p][0]; }
      var t := s[1..];
      assert t[p - 1] == c;
      var u := t[..p - 1];
      assert c !in u by {
        forall k | 0 <= k < |u| ensures u[k] != c {
          assert u[k] == s[..p][k + 1];
        }
      }
      SplitAtFirst(t, c, p - 1);
      assert t[p..] == s[p + 1..];
      assert s[..p] == [s[0]] + t[..p - 1];
    }
  }

  /** The comma loop from `i` collects exactly what `CollectPieces` takes from
      the split of the rest of the line, and stops where the pieces it leaves
      begin. */
  lemma {:induction false} CommaValuesSplit(line: string, i: nat)
    requires i <= |line|
    ensures CommaValues(line, i).0 == CollectPieces(Split(line[i..], ',')).0
    ensures line[CommaValues(line, i).1..] == Join(CollectPieces(Split(line[i..], ',')).1, ",")
    decreases |line| - i
  {
    StrBeforeSepSpec(line, ",", i);
    var (seg, j) := StrBeforeSep(line, ",", i);
    if j == i {
      NoCommaLeft(line, i);
      SplitNoSep(line[i..], ',');
    } else {
      SegmentFree(line, ',', i);
      CutAtComma(line, i, seg, j);
      if seg != [] {
        CommaValuesSplit(line, j);
      } else {
        JoinSplit(line[j..], ',');
      }
    }
  }

  /** When `strBeforeSep` finds no comma, none is left. */
  lemma NoCommaLeft(line: string, i: nat)
    requires i <= |line|
    requires forall j :: i <= j ==> !MatchAt(line, ",", j)
    ensures ',' !in line[i..]
  {
    forall k | 0 <= k < |line[i..]|
      ensures line[i..][k] != ','
    {
      assert !MatchAt(line, ",", i + k);
      assert line[i + k..i + k + 1] == [line[i + k]];
    }
  }

  /** A segment cut at a comma is the first piece of the split, and the split
      of the text after the comma is the rest. */
  lemma CutAtComma(line: string, i: nat, seg: string, j: nat)
    requires i < j <= |line| && j == i + |seg| + 1
    requires line[i..j] == seg + "," && ',' !in seg
    ensures Split(line[i..], ',') == [seg] + Split(line[j..], ',')
  {
    var s := line[i..];
    var p := |seg|;
    assert s[..p] == seg && s[p] == ',' by {
      assert s[..p] == line[i..j][..p];
      assert s[p] == line[i..j][p];
    }
    SplitAtFirst(s, ',', p);
    assert s[p + 1..] == line[j..];
  }

  /** Every header line the field parser accepts carries `ValuesOf` the text
      after its colon and the white space that follows: the name, a colon,
      white space, then text that does not start with white space. */
  lemma FieldLineValues(key: string, ws: string, v: string)
    requires key != [] && !HasSpace(key) && ':' !in key
    requires forall k :: 0 <= k < |ws| ==> IsSpace(ws[k])
    requires v == [] || !IsSpace(v[0])
    ensures ParseFieldLine(key + ":" + ws + v).Success?
    ensures ParseFieldLine(key + ":" + ws + v).value.key == key
    ensures ParseFieldLine(key + ":" + ws + v).value.values == ValuesOf(v)
  {
    var line := key + ":" + ws + v;
    var t := |key| + 1 + |ws|;
    FieldLineCut(key, ws, v);
    FieldLineUnfold(line, key, t);
    CommaValuesSplit(line, t);
  }

  /** The parts of a line built from a name, white space and a value text:
      the name is cut at the colon and the white space is skipped. */
  lemma FieldLineCut(key: string, ws: string, v: string)
    requires ':' !in key
    requires forall k :: 0 <= k < |ws| ==> IsSpace(ws[k])
    requires v == [] || !IsSpace(v[0])
    ensures var line := key + ":" + ws + v;
      && StrBeforeSep(line, ":", 0) == (key, |key| + 1)
      && SkipSpace(line, |key| + 1) == |key| + 1 + |ws|
      && line[|key| + 1 + |ws|..] == v
  {
    var line := key + ":" + ws + v;
    var i := |key| + 1;
    assert line == key + ":" + (ws + v);
    CutKey(key, ws + v);
    assert line[i..] == ws + v;
    SkipWhiteSpace(line, i, ws, v);
  }

  lemma CutKey(key: string, rest: string)
    requires ':' !in key
    ensures StrBeforeSep(key + ":" + rest, ":", 0) == (key, |key| + 1)
  {
    var line := key + ":" + rest;
    assert line[0..|key| + 1] == key + ":";
    SepAfter(line, ":", 0, key);
  }

  lemma SkipWhiteSpace(line: string, i: nat, ws: string, v: string)
    requires i <= |line| && line[i..] == ws + v
    requires forall k :: 0 <= k < |ws| ==> IsSpace(ws[k])
    requires v == [] || !IsSpace(v[0])
    ensures SkipSpace(line, i) == i + |ws| && line[i + |ws|..] == v
  {
    var t := i + |ws|;
    assert line[t..] == (ws + v)[|ws|..] == v;
    forall k | i <= k < t
      ensures IsSpace(line[k])
    {
      assert line[k] == (ws + v)[k - i] == ws[k - i];
    }
    if t < |line| {
      assert line[t] == v[0];
    }
    SkipStops(line, i, t);
  }

  /** `SkipSpace` stops at the first character that is not white space. */
  lemma {:induction false} SkipStops(line: string, i: nat, t: nat)
    requires i <= t <= |line|
    requires forall k :: i <= k < t ==> IsSpace(line[k])
    requires t == |line| || !IsSpace(line[t])
    ensures SkipSpace(line, i) == t
    decreases t - i
  {
    if i < t {
      SkipStops(line, i + 1, t);
    }
  }

  /** The field parser on a line whose name is cut at the colon and whose
      value text starts at `t`: the comma loop from `t`, then the remainder. */
  lemma FieldLineUnfold(line: string, key: string, t: nat)
    requires StrBeforeSep(line, ":", 0) == (key, |key| + 1) && key != [] && !HasSpace(key)
    requires |key| + 1 <= |line| && SkipSpace(line, |key| + 1) == t
    ensures ParseFieldLine(line).Success? && ParseFieldLine(line).value.key == key
    ensures var (segments, k) := CommaValues(line, t);
      var rest := Trim(CStr(line[k..]));
      ParseFieldLine(line).value.values == segments + if rest != [] then [rest] else []
  {
  }

  /** The same, read off any accepted line: its values are `ValuesOf` the text
      from where the white space after the colon ends. */
  lemma AcceptedLineValues(line: string)
    requires ParseFieldLine(line).Success?
    ensures var f := ParseFieldLine(line).value;
      f.values == ValuesOf(line[SkipSpace(line, |f.key| + 1)..])
  {
    var f := ParseFieldLine(line).value;
    var i := |f.key| + 1;
    var t := SkipSpace(line, i);
    AcceptedLineParts(line, f.key, t);
    FieldLineValues(f.key, line[i..t], line[t..]);
  }

  /** An accepted line is its name, a colon, the white space the parser
      skips, and the value text. */
  lemma AcceptedLineParts(line: string, key: string, t: nat)
    requires |key| < |line| && line[..|key| + 1] == key + ":"
    requires t == SkipSpace(line, |key| + 1)
    ensures var ws := line[|key| + 1..t];
      && line == key + ":" + ws + line[t..]
      && (forall k :: 0 <= k < |ws| ==> IsSpace(ws[k]))
      && (line[t..] == [] || !IsSpace(line[t..][0]))
  {
    var i := |key| + 1;
    var ws := line[i..t];
    assert line == line[..i] + ws + line[t..];
    forall k | 0 <= k < |ws| ensures IsSpace(ws[k]) {
      assert ws[k] == line[i + k];
    }
  }
}

=== FILE: decimal.dfy ===
/** Decimal text of integers (`uintToStr`, `toStr`) and its inverse, the
    reading of a digit string back into a number. */
module Decimal {

  predicate IsDigit(c: char)
  {
    '0' <= c <= '9'
  }

  predicate AllDigits(s: string)
  {
    forall i :: 0 <= i < |s| ==> IsDigit(s[i])
  }

  function DigitValue(c: char): nat
    requires IsDigit(c)
  {
    (c as int) - ('0' as int)
  }

  /** `d + '0'`: the character of a single decimal digit. */
  function DigitChar(d: nat): (c: char)
    requires d < 10
    ensures IsDigit(c) && DigitValue(c) == d
  {
    (('0' as int) + d) as char
  }

  /** `uintToStr(n)`: the decimal text of `n`, without leading zeros. */
  function NatToStr(n: nat): (r: string)
    ensures |r| >= 1 && AllDigits(r)
    ensures r[0] == '0' <==> n == 0
  {
    if n < 10 then [DigitChar(n)] else NatToStr(n / 10) + [DigitChar(n % 10)]
  }

  /** `toStr(i)`: the decimal text of `i`, with a leading `-` when negative. */
  function IntToStr(i: int): (r: string)
    ensures i >= 0 ==> r == NatToStr(i)
    ensures i < 0 ==> |r| >= 2 && r[0] == '-' && r[1..] == NatToStr(-i)
  {
    if i < 0 then "-" + NatToStr(-i) else NatToStr(i)
  }

  /** The number a digit string denotes. */
  function StrToNat(s: string): nat
    requires AllDigits(s)
  {
    if |s| == 0 then 0 else StrToNat(s[..|s| - 1]) * 10 + DigitValue(s[|s| - 1])
  }

  /** Reading back the decimal text of `n` gives `n`. */
  lemma {:induction false} StrToNatOfNatToStr(n: nat)
    ensures StrToNat(NatToStr(n)) == n
  {
    if n >= 10 {
      var s := NatToStr(n);
      assert s[..|s| - 1] == NatToStr(n / 10);
      StrToNatOfNatToStr(n / 10);
    }
  }

  /** Every digit string without a leading zero is the text of its value. */
  lemma {:induction false} NatToStrOfStrToNat(s: string)
    requires AllDigits(s) && |s| >= 1 && (s[0] == '0' ==> |s| == 1)
    ensures NatToStr(StrToNat(s)) == s
  {
    if |s| > 1 {
      var p := s[..|s| - 1];
      assert p[0] == s[0];
      NatToStrOfStrToNat(p);
      StrToNatPositive(p);
      assert s == p + [s[|s| - 1]];
    }
  }

  lemma {:induction false} StrToNatPositive(s: string)
    requires AllDigits(s) && |s| >= 1 && s[0] != '0'
    ensures StrToNat(s) >= 1
  {
    if |s| > 1 {
      var p := s[..|s| - 1];
      assert p[0] == s[0];
      StrToNatPositive(p);
    }
  }

  /** The value of a two-digit string, digit by digit. */
  lemma StrToNatTwo(s: string)
    requires |s| == 2 && AllDigits(s)
    ensures StrToNat(s) == DigitValue(s[0]) * 10 + DigitValue(s[1])
  {
    assert s[..1] == [s[0]];
    assert [s[0]][..0] == [];
    assert StrToNat([s[0]]) == DigitValue(s[0]);
  }

  /** The value of a three-digit string, digit by digit. */
  lemma StrToNatThree(s: string)
    requires |s| == 3 && AllDigits(s)
    ensures StrToNat(s) == DigitValue(s[0]) * 100 + DigitValue(s[1]) * 10 + DigitValue(s[2])
  {
    assert s[..2][..1] == [s[0]];
    assert [s[0]][..0] == [];
    assert StrToNat([s[0]]) == DigitValue(s[0]);
    assert StrToNat(s[..2]) == DigitValue(s[0]) * 10 + DigitValue(s[1]);
  }

  /** A three-digit number is written as its hundreds, tens and units digits. */
  lemma ThreeDigits(n: nat)
    requires 100 <= n <= 999
    ensures NatToStr(n) == [DigitChar(n / 100), DigitChar(n / 10 % 10), DigitChar(n % 10)]
  {
    assert NatToStr(n / 10) == [DigitChar(n / 100), DigitChar(n / 10 % 10)];
  }
}

=== FILE: file_reader.dfy ===
/** `async::FileReader`: a resumable read of one file, advanced one step per
    call of `task()`. Each step is a pure function of the reader's state and
    of what the descriptor layer reports during that call. */
module FileReader {
  import opened Outcomes
  import opened AsyncTask

  /** `_processor->stat()` after a read attempt. */
  datatype ProcStat = FileClosed | OtherStat(code: int)

  /** What one call of `task()` observes of the layer beneath it. */
  datatype ReadEnv = ReadEnv(
    open: OpenResult,       // openFdByPath("r")
    fdClosed: bool,         // _processor->isFdClosed(_fd)
    eventCount: nat,        // _processor->eventCount()
    timeout: TimeoutCheck,  // checkTimeout()
    pending: string,        // what the first getReadBuf hands over
    stat: ProcStat,         // _processor->stat()
    rest: string)           // what the second getReadBuf hands over

  /** The reader's state. `processor` is the descriptor of the
      `SingleIOProcessor` once one exists; `renewals` counts the calls of
      `renewTimeout()`, which is all of the deadline this model keeps. */
  datatype Reader = Reader(
    timeoutMs: nat,
    target: Target,
    isFifo: bool,
    status: Status,
    processor: Option<int>,
    buffer: string,
    renewals: nat)

  /** A reader nobody has called yet. */
  predicate Fresh(r: Reader)
  {
    r.status == Begin && r.processor == None && r.buffer == [] && r.renewals == 0
  }

  /** The constructor from a descriptor, which is told whether it is a FIFO. */
  function FromDescriptor(timeoutMs: nat, fd: int, isFifo: bool): (r: Reader)
    ensures Fresh(r) && r.target == Descriptor(fd) && r.isFifo == isFifo
  {
    Reader(timeoutMs, Descriptor(fd), isFifo, Begin, None, [], 0)
  }

  /** The constructor from a path: such a reader is never a FIFO. */
  function FromPath(timeoutMs: nat, path: string): (r: Reader)
    ensures Fresh(r) && r.target == Path(path) && !r.isFifo
  {
    Reader(timeoutMs, Path(path), false, Begin, None, [], 0)
  }

  /** The part of `task()` that runs with a processor in place: renew the
      deadline on activity, stop on expiry, take over what was read, and
      finish once the processor reports the file closed. */
  function Poll(r: Reader, e: ReadEnv): (r': Reader)
    ensures r'.timeoutMs == r.timeoutMs && r'.target == r.target && r'.isFifo == r.isFifo
    ensures r'.processor == r.processor
    ensures r'.renewals == r.renewals + 1 || (r'.renewals == r.renewals && e.eventCount == 0)
    ensures r'.renewals == r.renewals + 1 ==> e.eventCount > 0
    ensures e.timeout.Expired? ==> r'.buffer == r.buffer && r'.status == e.timeout.after
    ensures e.timeout.InTime? && e.stat == FileClosed ==> r'.buffer == r.buffer + e.pending + e.rest && r'.status == Done
    ensures e.timeout.InTime? && e.stat != FileClosed ==> r'.buffer == r.buffer + e.pending && r'.status == r.status
  {
    var renewed := if e.eventCount > 0 then r.(renewals := r.renewals + 1) else r;
    match e.timeout
    case Expired(after) => renewed.(status := after)
    case InTime =>
      var read := renewed.(buffer := renewed.buffer + e.pending);
      match e.stat
      case FileClosed => read.(buffer := read.buffer + e.rest, status := Done)
      case OtherStat(_) => read
  }

  /** `FileReader::task`. The code it returns is the status of the state it
      leaves, since every path ends in `return (_status)`. */
  function Task(r: Reader, e: ReadEnv): (res: Result<Reader, Fault>)
    // once done, nothing changes
    ensures r.status == Done ==> res == Success(r)
    // a failed open returns at once and creates no processor
    ensures r.status == Begin && e.open.OpenFailed? ==>
      res == Success(r.(status := e.open.after))
    // a successful open creates the processor and moves to AGAIN, or straight
    // to DONE for a regular file whose descriptor is already closed
    ensures r.status == Begin && e.open.Opened? ==>
      res.Success? && res.value.processor == Some(OpenedFd(r.target, e.open.fd))
    ensures r.status == Begin && e.open.Opened? && !r.isFifo && e.fdClosed ==>
      res == Success(r.(processor := Some(OpenedFd(r.target, e.open.fd)), status := Done))
    // the call faults exactly when it needs a processor it does not have
    ensures res.Failure? <==> r.status != Begin && r.status != Done && r.processor.None?
    // what was read is only ever appended to
    ensures res.Success? ==> r.buffer <= res.value.buffer
    // the deadline is renewed at most once, and only on activity
    ensures res.Success? ==> res.value.renewals <= r.renewals + 1
    ensures res.Success? && res.value.renewals > r.renewals ==> e.eventCount > 0
    // on expiry nothing is read
    ensures res.Success? && e.timeout.Expired? ==> res.value.buffer == r.buffer
  {
    if r.status == Done then Success(r)
    else if r.status == Begin then
      match e.open
      case OpenFailed(after) => Success(r.(status := after))
      case Opened(fd) =>
        var started := r.(processor := Some(OpenedFd(r.target, fd)), status := Again);
        if !r.isFifo && e.fdClosed then Success(started.(status := Done))
        else Success(Poll(started, e))
    else if r.processor.None? then Failure(NullProcessor)
    else Success(Poll(r, e))
  }

  /** Whether a call reaches the read-buffer transfer of lines 44-55: the
      reader was not done, had or obtained a processor, did not stop at the
      closed-descriptor check, and its deadline had not expired. */
  predicate Reads(r: Reader, e: ReadEnv)
  {
    && r.status != Done
    && (r.status == Begin ==> e.open.Opened? && (r.isFifo || !e.fdClosed))
    && (r.status != Begin ==> r.processor.Some?)
    && e.timeout.InTime?
  }

  /** The processor's stat decides the outcome of a reading call: a closed
      file ends the read (taking over the last bytes), any other stat leaves
      the status where the call found it (AGAIN after a fresh open). */
  lemma StatDecides(r: Reader, e: ReadEnv)
    requires Reads(r, e)
    ensures Task(r, e).Success?
    ensures e.stat == FileClosed ==>
      Task(r, e).value.status == Done && Task(r, e).value.buffer == r.buffer + e.pending + e.rest
    ensures e.stat != FileClosed ==>
      Task(r, e).value.status == (if r.status == Begin then Again else r.status)
      && Task(r, e).value.buffer == r.buffer + e.pending
  {
  }

  /** A reader gives up its turn on expiry: the status becomes whatever the
      timeout check left, and nothing is transferred. */
  lemma ExpiryStops(r: Reader, e: ReadEnv)
    requires r.status != Done && e.timeout.Expired?
    requires r.status == Begin ==> e.open.Opened? && (r.isFifo || !e.fdClosed)
    requires r.status != Begin ==> r.processor.Some?
    ensures Task(r, e).Success?
    ensures Task(r, e).value.status == e.timeout.after && Task(r, e).value.buffer == r.buffer
  {
  }

  /** A zero-byte regular file opened by path: the first call that opens it
      already reports DONE, with nothing read. */
  lemma EmptyFileDone(timeoutMs: nat, path: string, e: ReadEnv)
    requires e.open.Opened? && e.fdClosed
    ensures Task(FromPath(timeoutMs, path), e).Success?
    ensures Task(FromPath(timeoutMs, path), e).value.status == Done
    ensures Task(FromPath(timeoutMs, path), e).value.buffer == []
  {
  }

  /** Only DONE is terminal: a reader whose status is an error code still
      polls its processor, and a closed file then turns the error into DONE. */
  lemma ErrorNotTerminal(r: Reader, e: ReadEnv)
    requires r.status.Error? && r.processor.Some?
    requires e.timeout.InTime? && e.stat == FileClosed
    ensures Task(r, e).Success? && Task(r, e).value.status == Done
  {
  }

  /** Successive calls of `task()`, each with its own observations; the run
      stops at the first fault. */
  function Run(r: Reader, es: seq<ReadEnv>): (res: Result<Reader, Fault>)
    // no call changes what the reader was built around
    ensures res.Success? ==>
      res.value.timeoutMs == r.timeoutMs && res.value.target == r.target && res.value.isFifo == r.isFifo
    // the deadline is renewed at most once per call
    ensures res.Success? ==> res.value.renewals <= r.renewals + |es|
    // the one fault is a call through the missing processor
    ensures res.Failure? ==> res.error == NullProcessor
    decreases |es|
  {
    if es == [] then Success(r)
    else
      match Task(r, es[0])
      case Failure(f) => Failure(f)
      case Success(r1) => Run(r1, es[1..])
  }

  /** Calls after DONE change nothing, however many there are. */
  lemma {:induction false} RunDone(r: Reader, es: seq<ReadEnv>)
    requires r.status == Done
    ensures Run(r, es) == Success(r)
    decreases |es|
  {
    if es != [] {
      RunDone(r, es[1..]);
    }
  }

  /** Over any run, what was read is only ever appended to. */
  lemma {:induction false} RunBufferGrows(r: Reader, es: seq<ReadEnv>)
    requires Run(r, es).Success?
    ensures r.buffer <= Run(r, es).value.buffer
    decreases |es|
  {
    if es != [] {
      RunBufferGrows(Task(r, es[0]).value, es[1..]);
    }
  }

  /** A processor is missing only while the reader is still at BEGIN. */
  predicate Consistent(r: Reader)
  {
    r.processor.None? ==> r.status == Begin
  }

  /** An open failure that leaves the status at BEGIN, so the next call tries
      again. */
  predicate RetriesOpen(e: ReadEnv)
  {
    e.open.OpenFailed? ==> e.open.after == Begin
  }

  /** When failed opens leave the status at BEGIN, no run from a consistent
      reader (a fresh one, in particular) ever calls through a missing
      processor. */
  lemma {:induction false} RunNeverFaults(r: Reader, es: seq<ReadEnv>)
    requires Consistent(r)
    requires forall i :: 0 <= i < |es| ==> RetriesOpen(es[i])
    ensures Run(r, es).Success?
    decreases |es|
  {
    if es != [] {
      var r1 := Task(r, es[0]).value;
      assert Consistent(r1);
      assert forall i :: 0 <= i < |es[1..]| ==> RetriesOpen(es[1..][i]) by {
        forall i | 0 <= i < |es[1..]| ensures RetriesOpen(es[1..][i]) {
          assert es[1..][i] == es[i + 1];
        }
      }
      RunNeverFaults(r1, es[1..]);
    }
  }

  /** When a failed open leaves an error code instead, the next call of
      `task()` goes past both status checks and calls through the processor
      that was never created. */
  lemma FaultAfterFailedOpen(timeoutMs: nat, path: string, e1: ReadEnv, e2: ReadEnv)
    requires e1.open == OpenFailed(Error(-1))
    ensures Run(FromPath(timeoutMs, path), [e1, e2]) == Failure(NullProcessor)
  {
    assert [e1, e2][1..] == [e2];
  }
}

=== FILE: file_writer.dfy ===
/** `async::FileWriter`: a resumable write of a string the writer keeps from
    its construction, advanced one step per call of `task()`. */
module FileWriter {
  import opened Outcomes
  import opened AsyncTask

  /** What one call of `task()` observes of the layer beneath it. */
  datatype WriteEnv = WriteEnv(
    open: OpenResult,       // openFdByPath(), whose result the writer ignores
    timeout: TimeoutCheck,  // checkTimeout(), whose result the writer ignores
    writeDone: bool)        // _processor->writeDone() after _processor->task()

  /** The `SingleIOProcessor` a writer creates: the descriptor it writes to
      and the write buffer it was handed. */
  datatype WriteProcessor = WriteProcessor(fd: Option<int>, writeBuf: string)

  /** The writer's state: the base-class part (timeout, target, status,
      descriptor, processor) and the content to write. */
  datatype Writer = Writer(
    timeoutMs: nat,
    target: Target,
    status: Status,
    fd: Option<int>,
    processor: Option<WriteProcessor>,
    content: string)

  /** A writer nobody has called yet. */
  predicate Fresh(w: Writer)
  {
    w.status == Begin && w.processor == None
  }

  /** The default constructor: no target, nothing to write. */
  function Default(): (w: Writer)
    ensures Fresh(w) && w.content == []
  {
    Writer(0, Descriptor(-1), Begin, None, None, [])
  }

  /** The constructor from a descriptor keeps its own copy of `content`. */
  function FromDescriptor(timeoutMs: nat, fd: int, content: string): (w: Writer)
    ensures Fresh(w) && w.target == Descriptor(fd) && w.fd == Some(fd) && w.content == content
  {
    Writer(timeoutMs, Descriptor(fd), Begin, Some(fd), None, content)
  }

  /** The constructor from a path keeps its own copy of `content`. */
  function FromPath(timeoutMs: nat, path: string, content: string): (w: Writer)
    ensures Fresh(w) && w.target == Path(path) && w.fd == None && w.content == content
  {
    Writer(timeoutMs, Path(path), Begin, None, None, content)
  }

  /** The copy constructor as written: the base class is copied, the content
      is not, so the copy starts with an empty string. */
  function CopyAsWritten(orig: Writer): (w: Writer)
    ensures w.content == [] && w.status == orig.status && w.processor == orig.processor
  {
    orig.(content := [])
  }

  /** Copy assignment as written: the base class is assigned, the content
      keeps whatever the target held before. */
  function AssignAsWritten(self: Writer, orig: Writer): (w: Writer)
    ensures w.content == self.content && w.status == orig.status && w.processor == orig.processor
  {
    orig.(content := self.content)
  }

  /** The copy constructor with the content copied as well. */
  function Copy(orig: Writer): (w: Writer)
    ensures w.content == orig.content && w.status == orig.status && w.processor == orig.processor
  {
    orig
  }

  /** Copy assignment with the content assigned as well. */
  function Assign(self: Writer, orig: Writer): (w: Writer)
    ensures w.content == orig.content && w.status == orig.status && w.processor == orig.processor
  {
    orig
  }

  /** `FileWriter::task`. The code it returns is the status of the state it
      leaves. */
  function Task(w: Writer, e: WriteEnv): (res: Result<Writer, Fault>)
    // once done, nothing changes
    ensures w.status == Done ==> res == Success(w)
    // the first call hands the stored content to a new processor and never
    // faults, whatever the open reported
    ensures w.status == Begin ==>
      res.Success? && res.value.processor.Some? && res.value.processor.value.writeBuf == w.content
    // the new processor writes to the descriptor the task was built around,
    // or to the one opened for its path
    ensures w.status == Begin && e.open.Opened? ==>
      res.Success? && res.value.processor.Some? && res.value.processor.value.fd == Some(OpenedFd(w.target, e.open.fd))
    // later calls keep the processor
    ensures w.status != Begin && res.Success? ==> res.value.processor == w.processor
    // the content itself is never touched
    ensures res.Success? ==> res.value.content == w.content
    // a call faults only when it finds no processor after BEGIN
    ensures res.Failure? <==> w.status != Begin && w.status != Done && w.processor.None?
    // the processor's verdict decides DONE
    ensures w.status != Done && res.Success? && e.timeout != Expired(Done) ==>
      (res.value.status == Done <==> e.writeDone)
  {
    if w.status == Done then Success(w)
    else
      var started :=
        if w.status == Begin then
          // whatever status a failed open leaves is overwritten by AGAIN
          var fd := match e.open case Opened(fd) => Some(OpenedFd(w.target, fd)) case OpenFailed(_) => w.fd;
          w.(fd := fd, processor := Some(WriteProcessor(fd, w.content)), status := Again)
        else w;
      if started.processor.None? then Failure(NullProcessor)
      else
        var checked := match e.timeout case InTime => started case Expired(after) => started.(status := after);
        Success(if e.writeDone then checked.(status := Done) else checked)
  }

  /** A timeout check that leaves the status alone: one that does not expire,
      or one that expires without touching the status. */
  predicate Harmless(e: WriteEnv, current: Status)
  {
    e.timeout.InTime? || e.timeout.after == current
  }

  /** The status a call works with once the BEGIN branch is behind it. */
  function Working(w: Writer): Status
  {
    if w.status == Begin then Again else w.status
  }

  /** The writer's result does not depend on whether the deadline has
      passed, as long as the timeout check leaves the status alone: expiry never
      takes a writer out of AGAIN. */
  lemma TimeoutIgnored(w: Writer, e: WriteEnv)
    requires w.status != Done && Harmless(e, Working(w))
    ensures Task(w, e) == Task(w, e.(timeout := InTime))
  {
  }

  /** Under a harmless timeout check, a writer at BEGIN or AGAIN returns
      only DONE or AGAIN, and DONE exactly when the processor has drained the
      content. */
  lemma TwoCodes(w: Writer, e: WriteEnv)
    requires w.status == Begin || (w.status == Again && w.processor.Some?)
    requires Harmless(e, Again)
    ensures Task(w, e).Success?
    ensures Task(w, e).value.status == (if e.writeDone then Done else Again)
  {
  }

  /** The test driver of `test_asyncfilewriter.cpp`: call `task()` until it
      returns DONE, go on after AGAIN, and give up with "Impossible return
      code" on anything else. `Pending` means the observations ran out. */
  datatype DriverResult = Finished(w: Writer, calls: nat) | Impossible(code: Status) | Pending(w: Writer) | Crashed

  function Drive(w: Writer, es: seq<WriteEnv>, calls: nat): (res: DriverResult)
    // the loop stops at OK, after at least one call and at most one per observation
    ensures res.Finished? ==> res.w.status == Done && calls < res.calls <= calls + |es|
    // any code other than OK and AGAIN is the impossible one
    ensures res.Impossible? ==> res.code != Done && res.code != Again
    // observations ran out while the writer kept asking for another turn
    ensures res.Pending? && es != [] ==> res.w.status == Again
    // the content is never touched on the way
    ensures res.Finished? ==> res.w.content == w.content
    ensures res.Pending? ==> res.w.content == w.content
    decreases |es|
  {
    if es == [] then Pending(w)
    else
      match Task(w, es[0])
      case Failure(_) => Crashed
      case Success(w1) =>
        if w1.status == Done then Finished(w1, calls + 1)
        else if w1.status == Again then Drive(w1, es[1..], calls + 1)
        else Impossible(w1.status)
  }

  /** The index of the first call whose processor reports the write done. */
  function FirstDone(es: seq<WriteEnv>): (k: nat)
    ensures k <= |es|
    ensures forall i :: 0 <= i < k ==> !es[i].writeDone
    ensures k < |es| ==> es[k].writeDone
  {
    if es == [] || es[0].writeDone then 0 else 1 + FirstDone(es[1..])
  }

  /** The writer's processor holds the writer's content as its write buffer. */
  predicate Handed(w: Writer)
  {
    w.processor.Some? && w.processor.value.writeBuf == w.content
  }

  /** Driving a writer under harmless timeout checks never meets an
      impossible code and never crashes: it finishes at the first call whose
      processor reports the write done, its processor holding the stored
      content, or is still pending when there is none. */
  lemma {:induction false} DriveFinishes(w: Writer, es: seq<WriteEnv>, calls: nat)
    requires w.status == Begin || (w.status == Again && Handed(w))
    requires forall i :: 0 <= i < |es| ==> Harmless(es[i], Again)
    ensures FirstDone(es) < |es| ==>
      Drive(w, es, calls).Finished? && Drive(w, es, calls).calls == calls + FirstDone(es) + 1
      && Drive(w, es, calls).w.content == w.content && Handed(Drive(w, es, calls).w)
    ensures FirstDone(es) == |es| ==> Drive(w, es, calls).Pending?
    decreases |es|
  {
    if es != [] {
      TwoCodes(w, es[0]);
      if !es[0].writeDone {
        var w1 := Task(w, es[0]).value;
        assert forall i :: 0 <= i < |es[1..]| ==> Harmless(es[1..][i], Again) by {
          forall i | 0 <= i < |es[1..]| ensures Harmless(es[1..][i], Again) {
            assert es[1..][i] == es[i + 1];
          }
        }
        DriveFinishes(w1, es[1..], calls + 1);
      }
    }
  }

  /** A fresh writer hands its processor exactly the content it was built
      with, from a descriptor or from a path. */
  lemma FirstCallWritesContent(w: Writer, e: WriteEnv)
    requires Fresh(w)
    ensures Task(w, e).Success? && Task(w, e).value.processor == Some(WriteProcessor(Task(w, e).value.fd, w.content))
  {
  }

  /** A copy made by the copy constructor as written, of a writer that has
      not started, writes the empty string instead of the original's content. */
  lemma CopyLosesContent(e: WriteEnv)
    ensures var orig := FromPath(0, "out", "abc");
      Task(orig, e).value.processor.value.writeBuf == "abc"
      && Task(CopyAsWritten(orig), e).value.processor.value.writeBuf == []
  {
  }

  /** Assignment as written leaves the target's own content in place, so an
      assigned-to default writer also writes the empty string. */
  lemma AssignLosesContent(e: WriteEnv)
    ensures var orig := FromPath(0, "out", "abc");
      Task(AssignAsWritten(Default(), orig), e).value.processor.value.writeBuf == []
  {
  }

  /** With the content copied, a copy or an assigned-to writer behaves exactly
      like the original on every call. */
  lemma CopyBehavesAlike(self: Writer, orig: Writer, e: WriteEnv)
    ensures Task(Copy(orig), e) == Task(orig, e)
    ensures Task(Assign(self, orig), e) == Task(orig, e)
  {
  }
}

=== FILE: http_request.dfy ===
/** The request parser `http_msg::HttpReq` (http_converter/HttpReq.cpp): a
    buffer-complete, three-phase parser (request line, header fields, body)
    over an immutable source text with a cursor that only moves forward. A
    phase that throws leaves the object as it was at the throw; `Parse` catches
    and records status 400. */
module HttpRequest {
  import opened Outcomes
  import opened Strings

  datatype Method = Get | Post | Delete

  /** `kMethodStr`, indexed by method number (`kGet`, `kPost`, `kDelete`). */
  const MethodNames: seq<string> := ["GET", "POST", "DELETE"]

  function MethodIndex(m: Method): (i: nat)
    ensures i < |MethodNames|
  {
    match m
    case Get => 0
    case Post => 1
    case Delete => 2
  }

  function MethodAt(i: nat): (m: Method)
    requires i < |MethodNames|
    ensures MethodIndex(m) == i
  {
    if i == 0 then Get else if i == 1 then Post else Delete
  }

  function MethodName(m: Method): string
  {
    MethodNames[MethodIndex(m)]
  }

  /** Why a phase threw; `Parse` maps every one of them to status 400. */
  datatype ParseError =
    | MalformedRequestLine
    | WrongTokenCount(count: nat)
    | MethodNotImplemented(token: string)
    | MalformedHeaderField(key: string)
    | MissingHost
    | UnexpectedBody
    | MalformedBody

  /** Header name to its values in order of appearance (`str_map_t`). */
  type Header = map<string, seq<string>>

  /** The fields of one `HttpReq` object. `requestMethod` (`_method`) is `None` where the source
      holds -1. */
  datatype HttpReq = HttpReq(
    src: string,
    offset: nat,
    requestMethod: Option<Method>,
    uri: string,
    version: string,
    header: Header,
    body: string,
    status: int,
    isChunked: bool)
  {
    predicate Valid()
    {
      offset <= |src|
    }
  }

  /** The constructor: cursor at 0, no method, status 0, not chunked. */
  function NewHttpReq(src: string): (r: HttpReq)
    ensures r.Valid()
    ensures r.src == src && r.offset == 0
    ensures r.requestMethod.None? && r.status == 0 && !r.isChunked
    ensures r.uri == [] && r.version == [] && r.header == map[] && r.body == []
  {
    HttpReq(src, 0, None, [], [], map[], [], 0, false)
  }

  /** Two states that differ at most in what the request-line phase writes. */
  predicate SameMessage(a: HttpReq, b: HttpReq)
  {
    a.src == b.src && a.header == b.header && a.body == b.body
    && a.status == b.status && a.isChunked == b.isChunked
  }

  /** The first index at or after `i` whose method name equals `token`: the
      scan of `kMethodStr`. */
  function ScanMethods(token: string, i: nat): (r: Option<nat>)
    requires i <= |MethodNames|
    ensures r.Some? ==> i <= r.value < |MethodNames| && MethodNames[r.value] == token
    ensures r.None? ==> forall k :: i <= k < |MethodNames| ==> MethodNames[k] != token
    decreases |MethodNames| - i
  {
    if i == |MethodNames| then None
    else if MethodNames[i] == token then Some(i)
    else ScanMethods(token, i + 1)
  }

  /** The request line at the cursor and the cursor past its CRLF. */
  function LineAt(src: string, offset: nat): (string, nat)
    requires offset <= |src|
  {
    StrBeforeSep(src, CRLF, offset)
  }

  /** `parseStartLine`. The cursor moves past the line before anything is
      checked; the method is only ever overwritten by a name found in the
      table, so a state whose method is already set accepts any token. */
  function ParseStartLine(r: HttpReq): (res: Outcome<HttpReq, ParseError>)
    requires r.Valid()
    ensures res.Final().Valid() && SameMessage(res.Final(), r)
    ensures res.Final().offset == LineAt(r.src, r.offset).1
    ensures var line := LineAt(r.src, r.offset).0;
      (line == [] || line[0] == ' ') ==> res == Threw(MalformedRequestLine, res.state)
    ensures var line := LineAt(r.src, r.offset).0;
      (line != [] && line[0] != ' ' && CountChar(line, ' ') != 2) ==>
        res == Threw(WrongTokenCount(CountChar(line, ' ') + 1), res.state)
    ensures var line := LineAt(r.src, r.offset).0;
      (line != [] && line[0] != ' ' && CountChar(line, ' ') == 2 && r.requestMethod.None?
        && Split(line, ' ')[0] !in MethodNames) ==>
        res == Threw(MethodNotImplemented(Split(line, ' ')[0]), res.state)
    ensures var line := LineAt(r.src, r.offset).0;
      r.requestMethod.None? ==>
        (res.Completed? <==>
          line != [] && line[0] != ' ' && CountChar(line, ' ') == 2 && Split(line, ' ')[0] in MethodNames)
    ensures var line := LineAt(r.src, r.offset).0;
      res.Completed? && r.requestMethod.None? ==>
        res.state.requestMethod.Some?
        && line == MethodName(res.state.requestMethod.value) + " " + res.state.uri + " " + res.state.version
        && ' ' !in res.state.uri && ' ' !in res.state.version
    ensures res.Threw? ==> res.state.requestMethod == r.requestMethod && res.state.uri == r.uri && res.state.version == r.version
    ensures res.Threw? && res.error.MethodNotImplemented? ==> res.error.token !in MethodNames
  {
    var (line, next) := LineAt(r.src, r.offset);
    var r1 := r.(offset := next);
    if line == [] || line[0] == ' ' then Threw(MalformedRequestLine, r1)
    else
      var tokens := Split(line, ' ');
      SplitCount(line, ' ');
      if |tokens| != 3 then Threw(WrongTokenCount(|tokens|), r1)
      else
        var found := ScanMethods(tokens[0], 0);
        var m := if found.Some? then Some(MethodAt(found.value)) else r.requestMethod;
        if m.None? then Threw(MethodNotImplemented(tokens[0]), r1)
        else
          JoinSplit(line, ' ');
          JoinThree(tokens, " ");
          Completed(r1.(requestMethod := m, uri := tokens[1], version := tokens[2]))
  }

  /** One header line split into its name and its values. */
  datatype Field = Field(key: string, values: seq<string>)

  /** The cursor moved past the white space at `i` (lines 118-119; the
      character at the end of a `std::string` is NUL, which stops the loop). */
  function SkipSpace(line: string, i: nat): (r: nat)
    requires i <= |line|
    ensures i <= r <= |line|
    ensures forall j :: i <= j < r ==> IsSpace(line[j])
    ensures r == |line| || !IsSpace(line[r])
    decreases |line| - i
  {
    if i < |line| && IsSpace(line[i]) then SkipSpace(line, i + 1) else i
  }

  /** A segment cut at a one-character separator does not hold that character. */
  lemma SegmentFree(s: string, c: char, off: nat)
    requires off <= |s|
    ensures c !in StrBeforeSep(s, [c], off).0
  {
    StrBeforeSepSpec(s, [c], off);
    var (v, j) := StrBeforeSep(s, [c], off);
    forall k | 0 <= k < |v|
      ensures v[k] != c
    {
      assert !MatchAt(s, [c], off + k);
      assert s[off..j][k] == v[k];
      assert s[off + k..off + k + 1] == [v[k]];
    }
  }

  /** The comma loop of lines 120-126: the trimmed text before each comma,
      until the text before a comma is empty or no comma is left. Returns the
      values and the cursor where the loop stopped. */
  function CommaValues(line: string, i: nat): (r: (seq<string>, nat))
    requires i <= |line|
    ensures i <= r.1 <= |line|
    ensures forall k :: 0 <= k < |r.0| ==> IsTrimmed(r.0[k]) && ',' !in r.0[k]
    decreases |line| - i
  {
    var cut := StrBeforeSep(line, ",", i);
    if cut.0 == [] then ([], cut.1)
    else
      SegmentFree(line, ',', i);
      var more := CommaValues(line, cut.1);
      ([Trim(cut.0)] + more.0, more.1)
  }

  /** The name cut off a header line is the text before its first colon. */
  lemma FirstColon(line: string)
    ensures var (key, i) := StrBeforeSep(line, ":", 0);
      && ':' !in key
      && (i == 0 ==> ':' !in line)
      && (i > 0 ==> |key| < |line| && line[..|key| + 1] == key + ":")
      && forall p :: 0 <= p < |line| && line[p] == ':' && ':' !in line[..p] ==> p == |key| && line[..p] == key
  {
    StrBeforeSepSpec(line, ":", 0);
    var (key, i) := StrBeforeSep(line, ":", 0);
    SegmentFree(line, ':', 0);
    if i == 0 {
      forall p | 0 <= p < |line|
        ensures line[p] != ':'
      {
        assert !MatchAt(line, ":", p);
        assert line[p..p + 1] == [line[p]];
      }
    } else {
      assert line[..i] == key + ":";
      forall p | 0 <= p < |line| && line[p] == ':' && ':' !in line[..p]
        ensures p == |key| && line[..p] == key
      {
        assert line[|key|] == line[..i][|key|];
      }
    }
  }

  /** The per-line work of `parseHeader` (lines 112-129): the name before the
      first colon must be non-empty and free of white space; the values are
      the comma-separated pieces after it, each trimmed of spaces, and the
      text after the last comma is kept only when it is not blank. */
  function ParseFieldLine(line: string): (r: Result<Field, ParseError>)
    ensures r.Success? ==>
      var key := r.value.key;
      key != [] && !HasSpace(key) && ':' !in key
      && |key| < |line| && line[..|key| + 1] == key + ":"
    ensures r.Failure? ==>
      ':' !in line
      || forall p :: 0 <= p < |line| && line[p] == ':' && ':' !in line[..p] ==> p == 0 || HasSpace(line[..p])
    ensures r.Success? ==> forall k :: 0 <= k < |r.value.values| ==> IsTrimmed(r.value.values[k])
  {
    var (key, i) := StrBeforeSep(line, ":", 0);
    FirstColon(line);
    if key == [] || HasSpace(key) then
      Failure(MalformedHeaderField(key))
    else
      var j := SkipSpace(line, i);
      var (segments, k) := CommaValues(line, j);
      var rest := Trim(CStr(line[k..]));
      Success(Field(key, segments + if rest != [] then [rest] else []))
  }

  /** Folding one field into the header: a new name gets an entry of its own,
      a name already present gets the new values appended after its old ones. */
  function FoldField(h: Header, f: Field): (h': Header)
    ensures h'.Keys == h.Keys + {f.key}
    ensures h'[f.key] == (if f.key in h then h[f.key] else []) + f.values
    ensures forall k :: k in h && k != f.key ==> h'[k] == h[k]
  {
    if f.key in h then h[f.key := h[f.key] + f.values] else h[f.key := f.values]
  }

  /** The line loop of `parseHeader` (lines 104-139): stops at the first empty
      line (or where no CRLF follows the cursor) and throws on a bad name. */
  function HeaderLoop(r: HttpReq): (res: Outcome<HttpReq, ParseError>)
    requires r.Valid()
    ensures res.Final().Valid() && res.Final().offset >= r.offset
    ensures res.Final() == r.(offset := res.Final().offset, header := res.Final().header)
    ensures r.header.Keys <= res.Final().header.Keys
    ensures res.Threw? ==> res.error.MalformedHeaderField?
    // a non-empty line the field parser refuses ends the loop with its error
    ensures var (line, next) := LineAt(r.src, r.offset);
      line != [] && ParseFieldLine(line).Failure? ==>
        res.Threw? && res.error == ParseFieldLine(line).error && res.state.offset == next
    decreases |r.src| - r.offset
  {
    var (line, next) := LineAt(r.src, r.offset);
    var r1 := r.(offset := next);
    if line == [] then Completed(r1)
    else
      match ParseFieldLine(line)
      case Failure(e) => Threw(e, r1)
      case Success(f) => HeaderLoop(r1.(header := FoldField(r1.header, f)))
  }

  /** `findKey` and `getHeaderVal`: the values stored under `key`, if any. */
  function FindKey(h: Header, key: string): (r: Option<seq<string>>)
    ensures r.Some? <==> key in h
    ensures r.Some? ==> r.value == h[key]
  {
    if key in h then Some(h[key]) else None
  }

  /** `checkHost`: a `Host` entry with at least one value must be present. */
  function CheckHost(r: HttpReq): (res: Outcome<HttpReq, ParseError>)
    ensures res.Final() == r
    ensures res.Completed? <==> "Host" in r.header && |r.header["Host"]| > 0
    ensures res.Threw? ==> res.error == MissingHost
  {
    match FindKey(r.header, "Host")
    case None => Threw(MissingHost, r)
    case Some(values) => if |values| == 0 then Threw(MissingHost, r) else Completed(r)
  }

  /** `checkChunk`: a `Transfer-Encoding` entry raises the chunked flag; the
      flag is never lowered. */
  function CheckChunk(r: HttpReq): (r': HttpReq)
    ensures r'.isChunked <==> r.isChunked || "Transfer-Encoding" in r.header
    ensures r' == r.(isChunked := r'.isChunked)
  {
    if FindKey(r.header, "Transfer-Encoding").None? then r else r.(isChunked := true)
  }

  /** `parseHeader`: the line loop, then the `Host` check, then the chunk flag. */
  function ParseHeader(r: HttpReq): (res: Outcome<HttpReq, ParseError>)
    requires r.Valid()
    ensures res.Final().Valid() && res.Final().offset >= r.offset
    ensures res.Final() == r.(offset := res.Final().offset, header := res.Final().header, isChunked := res.Final().isChunked)
    ensures res.Completed? ==> "Host" in res.state.header && |res.state.header["Host"]| > 0
    ensures res.Completed? ==> (res.state.isChunked <==> r.isChunked || "Transfer-Encoding" in res.state.header)
    ensures res.Threw? ==> res.state.isChunked == r.isChunked
    // a throw of the line loop is passed on as it is
    ensures HeaderLoop(r).Threw? ==> res == HeaderLoop(r)
    // past the loop, the header and the cursor are the ones the loop left
    ensures HeaderLoop(r).Completed? ==>
      res.Final().header == HeaderLoop(r).state.header && res.Final().offset == HeaderLoop(r).state.offset
    // the `Host` check is the only other way to throw
    ensures HeaderLoop(r).Completed? && res.Threw? ==> res == Threw(MissingHost, HeaderLoop(r).state)
  {
    match HeaderLoop(r)
    case Threw(e, r1) => Threw(e, r1)
    case Completed(r1) =>
      match CheckHost(r1)
      case Threw(e, r2) => Threw(e, r2)
      case Completed(r2) => Completed(CheckChunk(r2))
  }

  /** `parseBody`. GET and DELETE must have consumed the whole buffer. POST
      needs the last `\r` of the buffer to sit at `length - 2`; the body is the
      text from the cursor up to it. When the cursor is already past that `\r`
      the `size_t` count `end_idx - _offset` wraps around and `substr` takes
      the rest of the buffer. */
  function ParseBody(r: HttpReq): (res: Outcome<HttpReq, ParseError>)
    requires r.Valid()
    ensures res.Threw? ==> res.state == r
    ensures res.Final() == r.(body := res.Final().body)
    ensures r.requestMethod == Some(Get) || r.requestMethod == Some(Delete) ==>
      (res.Completed? <==> r.offset == |r.src|) && (res.Threw? ==> res.error == UnexpectedBody)
    ensures r.requestMethod == Some(Post) ==>
      (res.Completed? <==> |r.src| >= 2 && r.src[|r.src| - 2] == '\r' && r.src[|r.src| - 1] != '\r')
      && (res.Threw? ==> res.error == MalformedBody)
    ensures r.requestMethod == Some(Post) && res.Completed? && r.offset <= |r.src| - 2 ==>
      r.src[r.offset..] == res.state.body + "\r" + [r.src[|r.src| - 1]]
    // past the last `\r`, the wrapped-around count makes the body the rest
    ensures r.requestMethod == Some(Post) && res.Completed? && r.offset > |r.src| - 2 ==>
      res.state.body == r.src[r.offset..]
  {
    match r.requestMethod
    case Some(Get) => if r.offset != |r.src| then Threw(UnexpectedBody, r) else Completed(r)
    case Some(Delete) => if r.offset != |r.src| then Threw(UnexpectedBody, r) else Completed(r)
    case Some(Post) =>
      var last := FindLastOf(r.src, '\r');
      if last.None? || last.value != |r.src| - |CRLF| then Threw(MalformedBody, r)
      else
        var end := last.value;
        Completed(r.(body := if r.offset <= end then r.src[r.offset..end] else r.src[r.offset..]))
    case None => Completed(r)
  }

  /** The three phases in order, stopping at the first that throws. */
  function RunPhases(r: HttpReq): (res: Outcome<HttpReq, ParseError>)
    requires r.Valid()
    ensures res.Final().src == r.src && res.Final().status == r.status
    // the request line's throw ends the run
    ensures ParseStartLine(r).Threw? ==> res == ParseStartLine(r)
    // otherwise the header phase runs on what the request line left
    ensures var s1 := ParseStartLine(r);
      s1.Completed? && ParseHeader(s1.state).Threw? ==> res == ParseHeader(s1.state)
    // and, when that completes too, the body phase decides
    ensures var s1 := ParseStartLine(r);
      s1.Completed? && ParseHeader(s1.state).Completed? ==> res == ParseBody(ParseHeader(s1.state).state)
  {
    match ParseStartLine(r)
    case Threw(e, r1) => Threw(e, r1)
    case Completed(r1) =>
      match ParseHeader(r1)
      case Threw(e, r2) => Threw(e, r2)
      case Completed(r2) => ParseBody(r2)
  }

  /** `parse`: true exactly when all three phases complete; on any failure
      false, with status 400. */
  function Parse(r: HttpReq): (res: (bool, HttpReq))
    requires r.Valid()
    ensures var s1 := ParseStartLine(r);
      res.0 <==> s1.Completed? && var s2 := ParseHeader(s1.state);
        s2.Completed? && ParseBody(s2.state).Completed?
    ensures !res.0 ==> res.1.status == 400
    ensures res.0 ==> res.1.status == r.status
    ensures res.1.src == r.src
    // on success, the request is the one the three phases built in turn
    ensures res.0 ==> res.1 == ParseBody(ParseHeader(ParseStartLine(r).state).state).state
    // on failure, it is the state the throwing phase left, marked 400
    ensures !res.0 ==> res.1 == RunPhases(r).Final().(status := 400)
  {
    match RunPhases(r)
    case Completed(r') => (true, r')
    case Threw(_, r') => (false, r'.(status := 400))
  }

  /** `getMethod`: the method number, -1 when none was recognised. */
  function GetMethod(r: HttpReq): (i: int)
    ensures i == -1 <==> r.requestMethod.None?
    ensures i != -1 ==> 0 <= i < |MethodNames| && MethodNames[i] == MethodName(r.requestMethod.value)
  {
    match r.requestMethod
    case None => -1
    case Some(m) => MethodIndex(m)
  }

  /** `getHeaderVal`: the values stored under `key`, if any. */
  function GetHeaderVal(r: HttpReq, key: string): (v: Option<seq<string>>)
    ensures v.Some? <==> key in r.header
    ensures v.Some? ==> v.value == r.header[key]
  {
    FindKey(r.header, key)
  }
}

=== FILE: http_response.dfy ===
/** The setters of the response builder `HTTP::Response`
    (srcs/HTTP/Response/ResponseSetter.cpp). The header container's own
    `insert` is not part of this model: the header is kept as the sequence of
    (name, value) pairs handed to it, in call order, so every property below
    is about which pairs a setter inserts and not about how the container
    resolves repeated names. The status and MIME tables are parameters. */
module HttpResponse {
  import opened Outcomes
  import opened Strings
  import opened Decimal

  datatype Response = Response(
    statusCode: string,
    reasonPhrase: string,
    header: seq<(string, string)>,
    body: string)

  /** Every failure of `setStatus` is the same `runtime_error`. */
  datatype StatusError = WrongStatusCode

  /** `setValue`: one pair handed to the header container. */
  function SetValue(r: Response, name: string, value: string): (r': Response)
    ensures |r'.header| == |r.header| + 1 && r'.header[..|r.header|] == r.header
    ensures r'.header[|r.header|] == (name, value)
    ensures r' == r.(header := r'.header)
  {
    r.(header := r.header + [(name, value)])
  }

  // ---------------------------------------------------------------------
  // setStatus
  // ---------------------------------------------------------------------

  /** The digit loop of `setStatus` over `char buff[4]`: while digits remain
      and `i` has not run off the front, store the last digit at `i` and move
      left. Returns the buffer, what is left of the code, and `i`. */
  function DigitLoop(buff: seq<char>, temp: nat, i: int): (res: (seq<char>, nat, int))
    requires |buff| == 4 && -1 <= i <= 2
    ensures |res.0| == 4 && res.0[3] == buff[3] && -1 <= res.2 <= i
    ensures res.1 != 0 ==> res.2 == -1
    ensures forall k :: 0 <= k <= res.2 ==> res.0[k] == buff[k]
    decreases i + 1
  {
    if temp > 0 && i >= 0 then DigitLoop(buff[i := DigitChar(temp % 10)], temp / 10, i - 1)
    else (buff, temp, i)
  }

  /** The digit loop stops with something left of the code only when it has
      filled all three places, so the guard `temp != 0 && i != -1` after the
      loop never holds. */
  lemma GuardNeverFires(buff: seq<char>, code: nat)
    requires |buff| == 4
    ensures var (_, temp, i) := DigitLoop(buff, code, 2); !(temp != 0 && i != -1)
  {
  }

  /** A code of three or more digits fills all three places with its last
      three digits. */
  lemma {:induction false} DigitLoopThree(buff: seq<char>, code: nat)
    requires |buff| == 4 && code >= 100
    ensures DigitLoop(buff, code, 2).0
      == [DigitChar(code / 100 % 10), DigitChar(code / 10 % 10), DigitChar(code % 10), buff[3]]
    ensures DigitLoop(buff, code, 2).1 == code / 1000
  {
    var b1 := buff[2 := DigitChar(code % 10)];
    var b2 := b1[1 := DigitChar(code / 10 % 10)];
    var b3 := b2[0 := DigitChar(code / 10 / 10 % 10)];
    assert code / 10 / 10 == code / 100;
    assert code / 100 / 10 == code / 1000;
    assert DigitLoop(b3, code / 1000, -1) == (b3, code / 1000, -1);
    assert DigitLoop(b2, code / 100, 0) == DigitLoop(b3, code / 1000, -1);
    assert DigitLoop(b1, code / 10, 1) == DigitLoop(b2, code / 100, 0);
  }

  /** A code below 100 leaves the front of the buffer as it was and fills the
      back with the code's digits. */
  lemma DigitLoopShort(buff: seq<char>, code: nat)
    requires |buff| == 4 && 0 < code < 100
    ensures code < 10 ==> DigitLoop(buff, code, 2).0 == buff[..2] + NatToStr(code) + [buff[3]]
    ensures code >= 10 ==> DigitLoop(buff, code, 2).0 == buff[..1] + NatToStr(code) + [buff[3]]
  {
    var b1 := buff[2 := DigitChar(code % 10)];
    if code < 10 {
      assert DigitLoop(b1, 0, 1) == (b1, 0, 1);
      assert b1 == buff[..2] + [DigitChar(code)] + [buff[3]];
    } else {
      var b2 := b1[1 := DigitChar(code / 10 % 10)];
      assert code / 10 / 10 == 0;
      assert DigitLoop(b2, 0, 0) == (b2, 0, 0);
      assert DigitLoop(b1, code / 10, 1) == DigitLoop(b2, 0, 0);
      assert NatToStr(code) == [DigitChar(code / 10 % 10), DigitChar(code % 10)];
      assert b2 == buff[..1] + NatToStr(code) + [buff[3]];
    }
  }

  /** The text `_status_code` receives for a non-negative code: the buffer
      read as a C string. `uninit` stands for the three bytes of `buff` the
      loop may leave unwritten (their contents are indeterminate in C++). */
  function StatusText(code: nat, uninit: seq<char>): (s: string)
    requires |uninit| == 3
    ensures code >= 100 ==> |s| == 3 && AllDigits(s) && StrToNat(s) == code % 1000
    ensures 100 <= code <= 999 ==> s == NatToStr(code)
    ensures 0 < code < 100 && '\0' !in uninit ==>
      s == (if code < 10 then uninit[..2] else uninit[..1]) + NatToStr(code)
    ensures code == 0 ==> s == CStr(uninit)
  {
    var (buff, _, _) := DigitLoop(uninit + ['\0'], code, 2);
    if code >= 100 then
      StatusTextLong(code, uninit, buff);
      CStr(buff)
    else if code > 0 then
      StatusTextShort(code, uninit, buff);
      CStr(buff)
    else
      assert buff == uninit + ['\0'];
      CStrAppendNul(uninit);
      CStr(buff)
  }

  lemma StatusTextLong(code: nat, uninit: seq<char>, buff: seq<char>)
    requires |uninit| == 3 && code >= 100 && buff == DigitLoop(uninit + ['\0'], code, 2).0
    ensures var s := CStr(buff);
      |s| == 3 && AllDigits(s) && StrToNat(s) == code % 1000
      && (code <= 999 ==> s == NatToStr(code))
  {
    DigitLoopThree(uninit + ['\0'], code);
    var s := [DigitChar(code / 100 % 10), DigitChar(code / 10 % 10), DigitChar(code % 10)];
    TerminatedDigits(buff, s);
    LastThreeDigits(code);
    if code <= 999 {
      ThreeDigitsText(code);
    }
  }

  lemma TerminatedDigits(buff: seq<char>, s: string)
    requires |s| == 3 && AllDigits(s) && buff == [s[0], s[1], s[2], '\0']
    ensures CStr(buff) == s
  {
    assert buff == s + ['\0'];
    CStrNoNul(s);
    CStrAppendNul(s);
  }

  lemma ThreeDigitsText(code: nat)
    requires 100 <= code <= 999
    ensures NatToStr(code) == [DigitChar(code / 100 % 10), DigitChar(code / 10 % 10), DigitChar(code % 10)]
  {
    ThreeDigits(code);
    assert code / 100 % 10 == code / 100;
  }

  lemma StatusTextShort(code: nat, uninit: seq<char>, buff: seq<char>)
    requires |uninit| == 3 && 0 < code < 100 && buff == DigitLoop(uninit + ['\0'], code, 2).0
    ensures '\0' !in uninit ==>
      CStr(buff) == (if code < 10 then uninit[..2] else uninit[..1]) + NatToStr(code)
  {
    DigitLoopShort(uninit + ['\0'], code);
    if '\0' !in uninit {
      var d := NatToStr(code);
      var s := (if code < 10 then uninit[..2] else uninit[..1]) + d;
      assert '\0' !in s by {
        assert forall k :: 0 <= k < |d| ==> IsDigit(d[k]);
        assert forall c :: c in s ==> c in uninit || c in d;
      }
      assert buff == s + ['\0'];
      CStrNoNul(s);
      CStrAppendNul(s);
    }
  }

  /** A NUL appended after a C string does not change it. */
  lemma {:induction false} CStrAppendNul(s: string)
    ensures CStr(s + ['\0']) == CStr(s)
  {
    if |s| > 0 && s[0] != '\0' {
      assert (s + ['\0'])[1..] == s[1..] + ['\0'];
      CStrAppendNul(s[1..]);
    }
  }

  /** The last three digits, read back, give the code modulo 1000. */
  lemma LastThreeDigits(code: nat)
    ensures var s := [DigitChar(code / 100 % 10), DigitChar(code / 10 % 10), DigitChar(code % 10)];
      AllDigits(s) && StrToNat(s) == code % 1000
  {
    var s := [DigitChar(code / 100 % 10), DigitChar(code / 10 % 10), DigitChar(code % 10)];
    StrToNatThree(s);
    DivModThree(code);
  }

  lemma DivModThree(code: nat)
    ensures (code / 100 % 10) * 100 + (code / 10 % 10) * 10 + code % 10 == code % 1000
  {
    var q := code / 10;
    assert code == q * 10 + code % 10;
    var p := q / 10;
    assert q == p * 10 + q % 10;
    assert code / 100 == p;
    assert p == (p / 10) * 10 + p % 10;
    assert code == (p / 10) * 1000 + (p % 10) * 100 + (q % 10) * 10 + code % 10;
  }

  /** `setStatus`. A negative code throws before anything changes. Otherwise
      the digit text is stored first and the reason phrase is looked up
      afterwards, so a code missing from the table throws with the new text
      already in place. */
  function SetStatus(r: Response, code: int, statusTable: map<int, string>, uninit: seq<char>)
    : (res: Outcome<Response, StatusError>)
    requires |uninit| == 3
    ensures code < 0 ==> res.Threw? && res.state == r
    ensures res.Completed? <==> code >= 0 && code in statusTable
    ensures res.Completed? ==> res.state.reasonPhrase == statusTable[code]
    ensures res.Threw? ==> res.state.reasonPhrase == r.reasonPhrase
    ensures code >= 0 ==> res.Final().statusCode == StatusText(code, uninit)
    ensures res.Final().header == r.header && res.Final().body == r.body
  {
    if code < 0 then Threw(WrongStatusCode, r)
    else
      var (buff, temp, i) := DigitLoop(uninit + ['\0'], code, 2);
      if temp != 0 && i != -1 then Threw(WrongStatusCode, r)
      else
        var r1 := r.(statusCode := CStr(buff));
        if code !in statusTable then Threw(WrongStatusCode, r1)
        else Completed(r1.(reasonPhrase := statusTable[code]))
  }

  /** For a three-digit code in the table, the status text reads back as the
      code and the reason phrase is the table's. */
  lemma SetStatusThreeDigits(r: Response, code: int, statusTable: map<int, string>, uninit: seq<char>)
    requires |uninit| == 3 && 100 <= code <= 999 && code in statusTable
    ensures var res := SetStatus(r, code, statusTable, uninit);
      && res.Completed?
      && |res.state.statusCode| == 3 && AllDigits(res.state.statusCode)
      && StrToNat(res.state.statusCode) == code
      && res.state.reasonPhrase == statusTable[code]
  {
  }

  /** A code of four or more digits is not stopped by the digit guard: the
      status text becomes its last three digits before the table lookup. */
  lemma SetStatusLongCode(r: Response, code: int, statusTable: map<int, string>, uninit: seq<char>)
    requires |uninit| == 3 && code >= 1000
    ensures var res := SetStatus(r, code, statusTable, uninit);
      && (res.Completed? <==> code in statusTable)
      && StrToNat(res.Final().statusCode) == code % 1000
  {
  }

  // ---------------------------------------------------------------------
  // Content-Type, Content-Length, Connection, body
  // ---------------------------------------------------------------------

  /** The text after the last `.` of a path, if the path has a `.`. */
  function Extension(path: string): (ext: Option<string>)
    ensures ext.None? <==> '.' !in path
    ensures ext.Some? ==>
      && |ext.value| < |path|
      && path == path[..|path| - |ext.value| - 1] + "." + ext.value
      && '.' !in ext.value
  {
    match FindLastOf(path, '.')
    case None => None
    case Some(k) =>
      var ext := path[k + 1..];
      assert path == path[..k] + "." + ext;
      assert '.' !in ext by {
        forall j | 0 <= j < |ext|
          ensures ext[j] != '.'
        {
          assert ext[j] == path[k + 1 + j];
        }
      }
      Some(ext)
  }

  /** The fallback type for an extension the MIME table does not know. */
  const DefaultMimeType: string := "application/octet-stream"

  /** `setContentType`: a path with a `.` gets one `Content-Type` pair, the
      table's type for its extension or the fallback; a path without `.`
      changes nothing. */
  function SetContentType(r: Response, path: string, mimeTable: map<string, string>): (r': Response)
    ensures '.' !in path ==> r' == r
    ensures '.' in path ==> var ext := Extension(path).value;
      r'.header == r.header + [("Content-Type", if ext in mimeTable then mimeTable[ext] else DefaultMimeType)]
    ensures r' == r.(header := r'.header)
  {
    match Extension(path)
    case None => r
    case Some(ext) =>
      if ext !in mimeTable then SetValue(r, "Content-Type", DefaultMimeType)
      else SetValue(r, "Content-Type", mimeTable[ext])
  }

  /** `setContentLength(size_t)`: a `Content-Length` pair whose value reads
      back as the length, only when the length is positive. */
  function SetContentLength(r: Response, length: nat): (r': Response)
    ensures length == 0 ==> r' == r
    ensures length > 0 ==>
      && |r'.header| == |r.header| + 1 && r'.header[..|r.header|] == r.header
      && r'.header[|r.header|].0 == "Content-Length"
      && AllDigits(r'.header[|r.header|].1) && StrToNat(r'.header[|r.header|].1) == length
    ensures r' == r.(header := r'.header)
  {
    if length > 0 then
      StrToNatOfNatToStr(length);
      SetValue(r, "Content-Length", NatToStr(length))
    else r
  }

  /** `setContentLength()`: the same rule for the length of the stored body. */
  function SetBodyContentLength(r: Response): (r': Response)
    ensures r.body == [] ==> r' == r
    ensures r.body != [] ==>
      && |r'.header| == |r.header| + 1 && r'.header[..|r.header|] == r.header
      && r'.header[|r.header|].0 == "Content-Length"
      && AllDigits(r'.header[|r.header|].1)
      && StrToNat(r'.header[|r.header|].1) == |r'.body|
    ensures r' == r.(header := r'.header)
  {
    SetContentLength(r, |r.body|)
  }

  const KeepAlive: string := "keep-alive"
  const Close: string := "close"

  /** `setConnection`: one `Connection` pair, `keep-alive` for a persistent
      connection and `close` otherwise; the two values differ, so the pair
      tells which was asked for. */
  function SetConnection(r: Response, persistent: bool): (r': Response)
    ensures |r'.header| == |r.header| + 1 && r'.header[..|r.header|] == r.header
    ensures r'.header[|r.header|].0 == "Connection"
    ensures r'.header[|r.header|].1 == KeepAlive <==> persistent
    ensures r'.header[|r.header|].1 == Close <==> !persistent
    ensures r' == r.(header := r'.header)
  {
    if persistent then SetValue(r, "Connection", KeepAlive) else SetValue(r, "Connection", Close)
  }

  /** `setBody`: the body is replaced; nothing else changes. */
  function SetBody(r: Response, body: string): (r': Response)
    ensures r'.body == body && r' == r.(body := r'.body)
  {
    r.(body := body)
  }

  /** `setContent`: content type from the path, then the length of the
      content, then the body. Only the header and the body change; the header
      gains the type pair when the path has a `.` and the length pair when
      the content is not empty, and that length pair reads back as the length
      of the new body. */
  function SetContent(r: Response, content: string, path: string, mimeTable: map<string, string>)
    : (r': Response)
    ensures r'.body == content
    ensures r'.statusCode == r.statusCode && r'.reasonPhrase == r.reasonPhrase
    ensures var added := (if '.' in path then 1 else 0) + (if content != [] then 1 else 0);
      |r'.header| == |r.header| + added && r'.header[..|r.header|] == r.header
    ensures content != [] ==> var last := r'.header[|r'.header| - 1];
      last.0 == "Content-Length" && AllDigits(last.1) && StrToNat(last.1) == |r'.body|
    ensures forall k :: |r.header| <= k < |r'.header| ==> r'.header[k].0 in {"Content-Type", "Content-Length"}
    // the type pair comes first, with the table's type or the fallback
    ensures '.' in path ==> var ext := Extension(path).value;
      r'.header[|r.header|] == ("Content-Type", if ext in mimeTable then mimeTable[ext] else DefaultMimeType)
    // without a `.` no type pair is added at all
    ensures '.' !in path ==> forall k :: |r.header| <= k < |r'.header| ==> r'.header[k].0 == "Content-Length"
  {
    SetBody(SetContentLength(SetContentType(r, path, mimeTable), |content|), content)
  }

  // ---------------------------------------------------------------------
  // setDate
  // ---------------------------------------------------------------------

  /** The fields of `struct tm` that `setDate` reads. */
  datatype Tm = Tm(sec: int, min: int, hour: int, mday: int, mon: int, year: int, wday: int)

  /** The ranges `gmtime` produces (a leap second allowed). */
  predicate ValidTm(t: Tm)
  {
    0 <= t.sec <= 60 && 0 <= t.min <= 59 && 0 <= t.hour <= 23
    && 1 <= t.mday <= 31 && 0 <= t.mon <= 11 && 0 <= t.wday <= 6
  }

  const MonthNames: seq<string> :=
    ["Jan", "Feb", "Mar", "Apr", "May", "Jun", "Jul", "Aug", "Sep", "Oct", "Nov", "Dec"]
  const DayNames: seq<string> := ["Sun", "Mon", "Tue", "Wed", "Thu", "Fri", "Sat"]

  /** `toStr(n / 10, n % 10)`: the two decimal digits of a number below 100,
      with a leading zero. */
  function TwoDigits(n: int): (s: string)
    requires 0 <= n <= 99
    ensures |s| == 2 && AllDigits(s) && StrToNat(s) == n
  {
    var s := IntToStr(n / 10) + IntToStr(n % 10);
    assert s == [DigitChar(n / 10), DigitChar(n % 10)];
    StrToNatTwo(s);
    s
  }

  /** The `Date` value: `Ddd, DD Mon YYYY HH:MM:SS GMT`. */
  function FormatDate(t: Tm): (s: string)
    requires ValidTm(t)
    ensures |s| >= 26
    ensures s[..3] == DayNames[t.wday] && s[3..5] == ", " && s[7] == ' '
    ensures s[8..11] == MonthNames[t.mon] && s[11] == ' '
    ensures s[|s| - 4..] == " GMT"
  {
    var head := DateHead(t);
    var year := IntToStr(t.year + 1900);
    var clock := Clock(t);
    HeadLayout(t);
    ClockLayout(t);
    DateShape(head, year, clock);
    head + year + clock
  }

  /** `setDate` for a given broken-down time: one `Date` pair. */
  function SetDate(r: Response, t: Tm): (r': Response)
    requires ValidTm(t)
    ensures |r'.header| == |r.header| + 1 && r'.header[..|r.header|] == r.header
    ensures r'.header[|r.header|] == ("Date", FormatDate(t))
    ensures r' == r.(header := r'.header)
  {
    SetValue(r, "Date", FormatDate(t))
  }

  /** The position of `name` in `names`, if it is there. */
  function IndexOf(names: seq<string>, name: string): (i: Option<nat>)
    ensures i.Some? ==> i.value < |names| && names[i.value] == name
    ensures i.None? ==> name !in names
  {
    if |names| == 0 then None
    else if names[0] == name then Some(0)
    else match IndexOf(names[1..], name)
      case None => None
      case Some(j) => Some(j + 1)
  }

  /** Reading the fixed-width front `Ddd, DD Mon ` back into the day of the
      week, the day of the month and the month. */
  function ParseDateHead(h: string): (r: Option<(int, int, int)>)
    requires |h| == 12
  {
    var day := IndexOf(DayNames, h[..3]);
    var month := IndexOf(MonthNames, h[8..11]);
    if day.None? || month.None? || h[3..5] != ", " || h[7] != ' ' || h[11] != ' '
      || !AllDigits(h[5..7])
    then None
    else Some((day.value, StrToNat(h[5..7]), month.value))
  }

  /** Reading the fixed-width back ` HH:MM:SS GMT` into hour, minute and
      second. */
  function ParseClock(c: string): (r: Option<(int, int, int)>)
    requires |c| == 13
  {
    if c[0] != ' ' || c[3] != ':' || c[6] != ':' || c[9..] != " GMT"
      || !AllDigits(c[1..3]) || !AllDigits(c[4..6]) || !AllDigits(c[7..9])
    then None
    else Some((StrToNat(c[1..3]), StrToNat(c[4..6]), StrToNat(c[7..9])))
  }

  /** Reading the year back: a non-empty digit string, less 1900. */
  function ParseYear(y: string): (r: Option<int>)
  {
    if y == [] || !AllDigits(y) then None else Some(StrToNat(y) - 1900)
  }

  /** Reading a `Date` value back into the fields it was written from (years
      from 0 on, which have no sign). */
  function ParseDate(s: string): (t: Option<Tm>)
  {
    var n := |s|;
    if n < 26 then None
    else
      match (ParseDateHead(s[..12]), ParseYear(s[12..n - 13]), ParseClock(s[n - 13..]))
      case (Some((wday, mday, mon)), Some(year), Some((hour, min, sec))) =>
        Some(Tm(sec, min, hour, mday, mon, year, wday))
      case _ => None
  }

  predicate Distinct(names: seq<string>)
  {
    forall j, k :: 0 <= j < k < |names| ==> names[j] != names[k]
  }

  /** No two names in the day table, or in the month table, are equal. */
  lemma NamesDistinct()
    ensures Distinct(DayNames) && Distinct(MonthNames)
  {
    forall j, k | 0 <= j < k < |MonthNames|
      ensures MonthNames[j] != MonthNames[k]
    {
      assert MonthNames[j][0] != MonthNames[k][0] || MonthNames[j][1] != MonthNames[k][1]
        || MonthNames[j][2] != MonthNames[k][2];
    }
    forall j, k | 0 <= j < k < |DayNames|
      ensures DayNames[j] != DayNames[k]
    {
      assert DayNames[j][0] != DayNames[k][0] || DayNames[j][1] != DayNames[k][1];
    }
  }

  /** In a table of distinct names each name leads back to its index. */
  lemma {:induction false} NameIndex(names: seq<string>, i: nat)
    requires Distinct(names) && i < |names|
    ensures IndexOf(names, names[i]) == Some(i)
  {
    if i > 0 {
      assert names[1..][i - 1] == names[i];
      NameIndex(names[1..], i - 1);
    }
  }

  /** Every date written from a valid time with a non-negative year reads
      back as that time. */
  lemma DateRoundTrip(t: Tm)
    requires ValidTm(t) && t.year + 1900 >= 0
    ensures ParseDate(FormatDate(t)) == Some(t)
  {
    var s := FormatDate(t);
    var y := IntToStr(t.year + 1900);
    var head := DateHead(t);
    var clock := Clock(t);
    DateLayout(t);
    HeadRoundTrip(t);
    ClockRoundTrip(t);
    StrToNatOfNatToStr(t.year + 1900);
    assert ParseYear(y) == Some(t.year);
    DateAssemble(s, y, t);
  }

  function DateHead(t: Tm): string
    requires ValidTm(t)
  {
    DayNames[t.wday] + ", " + TwoDigits(t.mday) + " " + MonthNames[t.mon] + " "
  }

  function Clock(t: Tm): string
    requires ValidTm(t)
  {
    " " + TwoDigits(t.hour) + ":" + TwoDigits(t.min) + ":" + TwoDigits(t.sec) + " GMT"
  }

  /** A written date is its front, its year and its clock. */
  lemma DateLayout(t: Tm)
    requires ValidTm(t)
    ensures var s := FormatDate(t);
      && |s| == 25 + |IntToStr(t.year + 1900)|
      && s[..12] == DateHead(t)
      && s[12..|s| - 13] == IntToStr(t.year + 1900)
      && s[|s| - 13..] == Clock(t)
  {
    NameLengths();
    SliceThree(DateHead(t), IntToStr(t.year + 1900), Clock(t));
  }

  lemma SliceThree(a: string, b: string, c: string)
    ensures var s := a + b + c;
      && s[..|a|] == a && s[|a|..|a| + |b|] == b && s[|a| + |b|..] == c
  {
  }

  /** Every day and month name has three letters. */
  lemma NameLengths()
    ensures forall i :: 0 <= i < |DayNames| ==> |DayNames[i]| == 3
    ensures forall i :: 0 <= i < |MonthNames| ==> |MonthNames[i]| == 3
  {
  }

  lemma HeadRoundTrip(t: Tm)
    requires ValidTm(t)
    ensures ParseDateHead(DateHead(t)) == Some((t.wday, t.mday, t.mon))
  {
    HeadLayout(t);
    NamesDistinct();
    NameIndex(DayNames, t.wday);
    NameIndex(MonthNames, t.mon);
    HeadParse(DateHead(t), t);
  }

  lemma HeadLayout(t: Tm)
    requires ValidTm(t)
    ensures var h := DateHead(t);
      && |h| == 12 && h[..3] == DayNames[t.wday] && h[3..5] == ", " && h[5..7] == TwoDigits(t.mday)
      && h[7] == ' ' && h[8..11] == MonthNames[t.mon] && h[11] == ' '
  {
    NameLengths();
  }

  /** Where the fixed-width parts of a date sit in the whole. */
  lemma DateShape(head: string, year: string, clock: string)
    requires |head| == 12 && |year| >= 1 && |clock| == 13
    ensures var s := head + year + clock;
      && |s| == 25 + |year| && s[..3] == head[..3] && s[3..5] == head[3..5] && s[7] == head[7]
      && s[8..11] == head[8..11] && s[11] == head[11] && s[|s| - 4..] == clock[9..]
  {
    var s := head + year + clock;
    assert s[..12] == head;
    assert s[|s| - 13..] == clock;
  }

  lemma ClockLayout(t: Tm)
    requires ValidTm(t)
    ensures var c := Clock(t);
      |c| == 13 && c[9..] == " GMT"
  {
  }

  lemma HeadParse(h: string, t: Tm)
    requires ValidTm(t) && |h| == 12
    requires IndexOf(DayNames, h[..3]) == Some(t.wday) && IndexOf(MonthNames, h[8..11]) == Some(t.mon)
    requires h[3..5] == ", " && h[7] == ' ' && h[11] == ' '
    requires h[5..7] == TwoDigits(t.mday)
    ensures ParseDateHead(h) == Some((t.wday, t.mday, t.mon))
  {
  }

  lemma ClockRoundTrip(t: Tm)
    requires ValidTm(t)
    ensures ParseClock(Clock(t)) == Some((t.hour, t.min, t.sec))
  {
    ClockParse(TwoDigits(t.hour), TwoDigits(t.min), TwoDigits(t.sec));
  }

  /** Any three two-digit fields laid out as a clock read back. */
  lemma ClockParse(h: string, m: string, s: string)
    requires |h| == 2 && |m| == 2 && |s| == 2 && AllDigits(h) && AllDigits(m) && AllDigits(s)
    ensures ParseClock(" " + h + ":" + m + ":" + s + " GMT") == Some((StrToNat(h), StrToNat(m), StrToNat(s)))
  {
    var c := " " + h + ":" + m + ":" + s + " GMT";
    assert |c| == 13 && c[0] == ' ' && c[3] == ':' && c[6] == ':';
    assert c[1..3] == h;
    assert c[4..6] == m;
    assert c[7..9] == s;
    assert c[9..] == " GMT";
  }

  lemma DateAssemble(s: string, y: string, t: Tm)
    requires ValidTm(t) && |s| == 25 + |y| && ParseYear(y) == Some(t.year)
    requires ParseDateHead(s[..12]) == Some((t.wday, t.mday, t.mon))
    requires s[12..|s| - 13] == y
    requires ParseClock(s[|s| - 13..]) == Some((t.hour, t.min, t.sec))
    ensures ParseDate(s) == Some(t)
  {
  }
}

=== FILE: outcomes.dfy ===
/** Failure-carrying datatypes shared by every module of the model. */
module Outcomes {

  /** A value that may be absent (an `end()` iterator, `npos`, a missing key). */
  datatype Option<T> = None | Some(value: T)

  /** A computation that either produces a value or fails with an error. */
  datatype Result<T, E> = Success(value: T) | Failure(error: E)

  /** The effect of a C++ member function that may throw: the object state it
      leaves behind in either case, and the exception when one escaped. The
      state matters on the throwing path because the source updates fields
      (the parse cursor, the status text) before it throws. */
  datatype Outcome<S, E> = Completed(state: S) | Threw(error: E, state: S)
  {
    function Final(): S
    {
      match this
      case Completed(s) => s
      case Threw(_, s) => s
    }
  }
}

=== FILE: request_cases.dfy ===
/** Concrete requests run through the parser: header values that are blank
    or follow an empty comma segment, a method outside the fixed set, a
    request line with two tokens, and repeated header names. */
module RequestCases {
  import opened Outcomes
  import opened Strings
  import opened HttpRequest
  import opened RequestFormat
  import opened CommaSplit

  const BlankLine: string := "k: a, ,b"

  /** The name `k` and the space after its colon, in front of the value `a`. */
  lemma KeyK(line: string)
    requires |line| >= 4 && line[..4] == "k: a"
    ensures StrBeforeSep(line, ":", 0) == ("k", 2) && !HasSpace("k")
    ensures SkipSpace(line, 2) == 3
  {
    assert line[..2] == "k:";
    SepAfter(line, ":", 0, "k");
    assert line[2] == ' ' && line[3] == 'a';
    assert SkipSpace(line, 3) == 3;
  }

  lemma BlankCuts()
    ensures StrBeforeSep(BlankLine, ",", 3) == ("a", 5)
    ensures StrBeforeSep(BlankLine, ",", 5) == (" ", 7)
  {
    var line := BlankLine;
    assert line[3..5] == "a,";
    CommaCut(line, 3, "a", 5);
    assert line[5..7] == " ,";
    CommaCut(line, 5, " ", 7);
  }

  lemma BlankEnd()
    ensures CommaValues(BlankLine, 7) == ([], 7)
    ensures Trim(CStr(BlankLine[7..])) == "b"
  {
    assert BlankLine[7..] == "b";
    CommaValuesEnd(BlankLine, 7);
    CStrNoNul("b");
  }

  lemma BlankTrims()
    ensures Trim(" ") == [] && Trim("a") == "a"
  {
    SpaceTrims();
    LetterTrims();
  }

  lemma SpaceTrims()
    ensures Trim(" ") == []
  {
    TrimBlank(" ");
  }

  lemma LetterTrims()
    ensures Trim("a") == "a"
  {
    var a: string := "a";
    assert TrimLeft(a) == a;
    assert TrimRight(a) == a;
  }

  /** A last non-empty segment followed by a comma-free rest yields one value. */
  lemma CommaLast(line: string, i: nat, seg: string, j: nat)
    requires i + |seg| < |line| && seg != [] && j == i + |seg| + 1
    requires StrBeforeSep(line, ",", i) == (seg, j)
    requires CommaValues(line, j) == ([], j)
    ensures CommaValues(line, i).0 == [Trim(seg)] && CommaValues(line, i).1 == j
  {
    CommaUnfold(line, i, seg, j);
  }

  lemma BlankTail()
    ensures CommaValues(BlankLine, 5).0 == [""] && CommaValues(BlankLine, 5).1 == 7
  {
    BlankCuts();
    BlankEnd();
    CommaLast(BlankLine, 5, " ", 7);
    BlankTrims();
  }

  lemma BlankValues()
    ensures CommaValues(BlankLine, 3).0 == ["a", ""] && CommaValues(BlankLine, 3).1 == 7
  {
    BlankCuts();
    BlankTail();
    BlankTrims();
    CommaUnfold(BlankLine, 3, "a", 5);
    var tail := CommaValues(BlankLine, 5).0;
    assert CommaValues(BlankLine, 3).0 == [Trim("a")] + tail;
    assert [Trim("a")] + tail == ["a"] + [""];
  }

  /** A value that is blank but not empty is kept, trimmed to the empty
      string: the loop tests the segment before trimming it. */
  lemma BlankValueKept()
    ensures ParseFieldLine(BlankLine).Success?
    ensures ParseFieldLine(BlankLine).value == Field("k", ["a", "", "b"])
  {
    assert BlankLine[..4] == "k: a";
    KeyK(BlankLine);
    BlankValues();
    BlankEnd();
    FieldLineUnfold(BlankLine, "k", 3);
  }

  /** The request line at the front of `src`, when `line` has no CR. */
  lemma LineFront(src: string, line: string, rest: string)
    requires src == line + CRLF + rest && '\r' !in line
    ensures LineAt(src, 0) == (line, |line| + 2)
  {
    assert src[0..|line| + 2] == line + CRLF;
    SepAfter(src, CRLF, 0, line);
  }

  const PatchLine: string := "PATCH" + " " + "/" + " " + "HTTP/1.1"

  lemma PatchTokens()
    ensures PatchLine != [] && PatchLine[0] != ' ' && '\r' !in PatchLine
    ensures CountChar(PatchLine, ' ') == 2
    ensures Split(PatchLine, ' ')[0] == "PATCH"
  {
    var parts := ["PATCH", "/", "HTTP/1.1"];
    PatchParts(parts);
    SplitJoin(parts, ' ');
    SplitCount(PatchLine, ' ');
  }

  lemma PatchParts(parts: seq<string>)
    requires parts == ["PATCH", "/", "HTTP/1.1"]
    ensures Join(parts, [' ']) == PatchLine && '\r' !in PatchLine
    ensures forall k :: 0 <= k < |parts| ==> ' ' !in parts[k]
  {
    JoinThree(parts, " ");
    assert '\r' !in parts[0] && '\r' !in parts[1] && '\r' !in parts[2];
    assert ' ' !in parts[0] && ' ' !in parts[1] && ' ' !in parts[2];
  }

  lemma PatchUnknown()
    ensures "PATCH" !in MethodNames
  {
    assert |MethodNames[0]| == 3 && |MethodNames[1]| == 4 && |MethodNames[2]| == 6;
  }

  /** A method outside the fixed set is refused as not implemented, never
      mistaken for another method, and the parse reports status 400. */
  lemma PatchRejected(rest: string)
    ensures var r := NewHttpReq(PatchLine + CRLF + rest);
      && ParseStartLine(r).Threw? && ParseStartLine(r).error == MethodNotImplemented("PATCH")
      && !Parse(r).0 && Parse(r).1.status == 400 && Parse(r).1.requestMethod.None?
  {
    PatchTokens();
    PatchUnknown();
    LineFront(PatchLine + CRLF + rest, PatchLine, rest);
  }

  /** A request line with two tokens is refused with the token count. */
  lemma TwoTokensRejected(rest: string)
    ensures var r := NewHttpReq("GET /" + CRLF + rest);
      && ParseStartLine(r).Threw? && ParseStartLine(r).error == WrongTokenCount(2)
      && !Parse(r).0 && Parse(r).1.status == 400
  {
    assert CountChar("GET /", ' ') == 1;
    LineFront("GET /" + CRLF + rest, "GET /", rest);
  }

  const StopLine: string := "k: a,,b,c"

  lemma StopCuts()
    ensures StrBeforeSep(StopLine, ",", 3) == ("a", 5)
    ensures StrBeforeSep(StopLine, ",", 5) == ([], 6)
  {
    var line := StopLine;
    assert line[3..5] == "a,";
    CommaCut(line, 3, "a", 5);
    assert line[5..6] == [] + ",";
    SepAfter(line, ",", 5, []);
  }

  lemma StopRest()
    ensures Trim(CStr(StopLine[6..])) == "b,c"
  {
    assert StopLine[6..] == "b,c";
    CStrNoNul("b,c");
    TrimPadded([], "b,c");
    assert [] + "b,c" == "b,c";
  }

  lemma StopValues()
    ensures CommaValues(StopLine, 3) == (["a"], 6)
  {
    StopCuts();
    assert CommaValues(StopLine, 5) == ([], 6);
    CommaUnfold(StopLine, 3, "a", 5);
    var a := Trim("a");
    assert a == "a";
    var v3 := CommaValues(StopLine, 3);
    assert v3.0 == [a] + [];
    assert v3.0 == ["a"];
    assert v3.1 == 6;
  }

  /** An empty segment ends the comma loop: what follows it, commas and all,
      becomes one value. */
  lemma EmptySegmentStops()
    ensures ParseFieldLine(StopLine).Success?
    ensures ParseFieldLine(StopLine).value == Field("k", ["a", "b,c"])
  {
    assert StopLine[..4] == "k: a";
    KeyK(StopLine);
    StopValues();
    StopRest();
    FieldLineUnfold(StopLine, "k", 3);
  }

  const AcceptFields: seq<Field> := [
    Field("Host", ["localhost"]),
    Field("Accept", ["text/html", "text/plain"]),
    Field("Accept", ["application/json"])]

  lemma HostFieldWellFormed()
    ensures WellFormedField(AcceptFields[0])
  {
    assert WellFormedValue("localhost");
    assert !HasSpace("Host");
  }

  lemma FirstAcceptWellFormed()
    ensures WellFormedField(AcceptFields[1])
  {
    assert WellFormedValue("text/html");
    assert WellFormedValue("text/plain");
    assert !HasSpace("Accept");
  }

  lemma SecondAcceptWellFormed()
    ensures WellFormedField(AcceptFields[2])
  {
    assert WellFormedValue("application/json");
    assert !HasSpace("Accept");
  }

  lemma AcceptWellFormed()
    ensures forall k :: 0 <= k < |AcceptFields| ==> WellFormedField(AcceptFields[k])
  {
    HostFieldWellFormed();
    FirstAcceptWellFormed();
    SecondAcceptWellFormed();
  }

  lemma AcceptNames()
    ensures NamesKey(AcceptFields, "Host") && ValuesFor(AcceptFields, "Host") == ["localhost"]
    ensures !NamesKey(AcceptFields, "Transfer-Encoding")
    ensures ValuesFor(AcceptFields, "Accept") == ["text/html", "text/plain", "application/json"]
  {
    assert AcceptFields[0].key == "Host";
  }

  /** Parsing a well-formed request stores, under every name it uses, all
      values given for that name in the order written. */
  lemma ParsedValues(m: Method, uri: string, version: string, fs: seq<Field>, body: string, key: string)
    requires WellFormedToken(uri) && WellFormedToken(version)
    requires forall k :: 0 <= k < |fs| ==> WellFormedField(fs[k])
    requires NamesKey(fs, "Host") && |ValuesFor(fs, "Host")| > 0
    requires m != Post ==> body == []
    requires NamesKey(fs, key)
    ensures var res := Parse(NewHttpReq(FormatRequest(m, uri, version, fs, body)));
      res.0 && key in res.1.header && res.1.header[key] == ValuesFor(fs, key)
  {
    RequestRoundTrip(m, uri, version, fs, body);
    FoldFieldsValues(map[], fs, key);
  }

  /** Two `Accept` lines fold into one sequence, in the order written. */
  lemma AcceptFolds()
    ensures var res := Parse(NewHttpReq(FormatRequest(Get, "/", "HTTP/1.1", AcceptFields, [])));
      && res.0
      && "Accept" in res.1.header
      && res.1.header["Accept"] == ["text/html", "text/plain", "application/json"]
  {
    AcceptWellFormed();
    AcceptNames();
    assert AcceptFields[1].key == "Accept";
    ParsedValues(Get, "/", "HTTP/1.1", AcceptFields, [], "Accept");
  }
}

=== FILE: request_format.dfy ===
/** The messages the request parser is meant for, written out: a request line,
    header lines `Name: v1, v2` and an empty line, then the body (followed by
    CRLF for POST). For every such message the parser recovers what was
    written, with repeated names folded into one value sequence. */
module RequestFormat {
  import opened Outcomes
  import opened Strings
  import opened HttpRequest

  function FormatRequestLine(m: Method, uri: string, version: string): string
  {
    MethodName(m) + " " + uri + " " + version + CRLF
  }

  function FieldText(f: Field): string
  {
    f.key + ": " + Join(f.values, ", ")
  }

  function FormatFields(fs: seq<Field>): string
  {
    if |fs| == 0 then [] else FieldText(fs[0]) + CRLF + FormatFields(fs[1..])
  }

  function FormatBody(m: Method, body: string): string
  {
    if m == Post then body + CRLF else body
  }

  function FormatRequest(m: Method, uri: string, version: string, fs: seq<Field>, body: string): string
  {
    FormatRequestLine(m, uri, version) + FormatFields(fs) + CRLF + FormatBody(m, body)
  }

  /** The header a sequence of fields folds into, starting from `h`. */
  function FoldFields(h: Header, fs: seq<Field>): Header
    decreases |fs|
  {
    if |fs| == 0 then h else FoldFields(FoldField(h, fs[0]), fs[1..])
  }

  /** All values given for `key`, in the order the fields list them. */
  function ValuesFor(fs: seq<Field>, key: string): seq<string>
  {
    if |fs| == 0 then [] else (if fs[0].key == key then fs[0].values else []) + ValuesFor(fs[1..], key)
  }

  predicate NamesKey(fs: seq<Field>, key: string)
  {
    exists k :: 0 <= k < |fs| && fs[k].key == key
  }

  /** Folding keeps every name that occurs and, under it, every value given
      for it in order, after the values it already had. */
  lemma {:induction false} FoldFieldsValues(h: Header, fs: seq<Field>, key: string)
    ensures key in FoldFields(h, fs) <==> key in h || NamesKey(fs, key)
    ensures key in FoldFields(h, fs) ==>
      FoldFields(h, fs)[key] == (if key in h then h[key] else []) + ValuesFor(fs, key)
    decreases |fs|
  {
    if |fs| > 0 {
      var h1 := FoldField(h, fs[0]);
      FoldFieldsValues(h1, fs[1..], key);
      NamesKeyCons(fs, key);
    }
  }

  lemma NamesKeyCons(fs: seq<Field>, key: string)
    requires |fs| > 0
    ensures NamesKey(fs, key) <==> fs[0].key == key || NamesKey(fs[1..], key)
  {
    if NamesKey(fs, key) && fs[0].key != key {
      var k :| 0 <= k < |fs| && fs[k].key == key;
      assert fs[1..][k - 1].key == key;
    }
    if NamesKey(fs[1..], key) {
      var k :| 0 <= k < |fs[1..]| && fs[1..][k].key == key;
      assert fs[k + 1].key == key;
    }
  }

  predicate WellFormedValue(v: string)
  {
    v != [] && ',' !in v && '\r' !in v && '\0' !in v && !IsSpace(v[0]) && !IsSpace(v[|v| - 1])
  }

  predicate WellFormedField(f: Field)
  {
    f.key != [] && !HasSpace(f.key) && ':' !in f.key
    && forall k :: 0 <= k < |f.values| ==> WellFormedValue(f.values[k])
  }

  /** A request-line token: no space (it would split) and no CR (it would end
      the line). */
  predicate WellFormedToken(t: string)
  {
    ' ' !in t && '\r' !in t
  }

  /** The comma loop over values written `v1, v2, ..., vn` (after blank
      padding) yields all but the last value and stops before the last. */
  lemma {:induction false} CommaValuesJoin(line: string, i: nat, pad: string, vs: seq<string>)
    requires i <= |line| && AllSpaces(pad) && |vs| >= 1
    requires forall k :: 0 <= k < |vs| ==> WellFormedValue(vs[k])
    requires line[i..] == pad + Join(vs, ", ")
    ensures CommaValues(line, i).0 == vs[..|vs| - 1]
    ensures var e := CommaValues(line, i).1;
      e <= |line| && line[e..] == (if |vs| == 1 then pad else " ") + vs[|vs| - 1]
    decreases |vs|
  {
    if |vs| == 1 {
      JoinLast(line, i, pad, vs[0]);
      CommaValuesEnd(line, i);
    } else {
      var seg := pad + vs[0];
      var rest := Join(vs[1..], ", ");
      var j := i + |seg| + 1;
      JoinFirst(line, i, pad, vs);
      CommaValuesFirst(line, i, seg, rest, j);
      TrimPadded(pad, vs[0]);
      CommaValuesJoin(line, j, " ", vs[1..]);
      DropFirst(vs);
    }
  }

  /** A padded last value leaves no comma. */
  lemma JoinLast(line: string, i: nat, pad: string, v: string)
    requires i <= |line| && AllSpaces(pad) && WellFormedValue(v)
    requires line[i..] == pad + Join([v], ", ")
    ensures line[i..] == pad + v && ',' !in line[i..]
  {
    assert forall c :: c in pad + v ==> c in pad || c in v;
  }

  /** The first value of a run of at least two, with its padding, is a
      comma-free segment followed by ", ". */
  lemma JoinFirst(line: string, i: nat, pad: string, vs: seq<string>)
    requires i <= |line| && AllSpaces(pad) && |vs| >= 2 && WellFormedValue(vs[0])
    requires line[i..] == pad + Join(vs, ", ")
    ensures line[i..] == (pad + vs[0]) + ", " + Join(vs[1..], ", ")
    ensures pad + vs[0] != [] && ',' !in pad + vs[0]
  {
    assert forall c :: c in pad + vs[0] ==> c in pad || c in vs[0];
  }

  lemma DropFirst(vs: seq<string>)
    requires |vs| >= 2
    ensures vs[..|vs| - 1] == [vs[0]] + vs[1..][..|vs[1..]| - 1]
    ensures vs[1..][|vs[1..]| - 1] == vs[|vs| - 1]
  {
  }

  /** The first value of a comma-separated run. */
  lemma CommaValuesFirst(line: string, i: nat, seg: string, rest: string, j: nat)
    requires i <= |line| && seg != [] && ',' !in seg && j == i + |seg| + 1
    requires line[i..] == seg + ", " + rest
    ensures j <= |line| && line[j..] == " " + rest
    ensures CommaValues(line, i) == ([Trim(seg)] + CommaValues(line, j).0, CommaValues(line, j).1)
  {
    CommaSlices(line, i, seg, rest, j);
    CommaCut(line, i, seg, j);
    CommaUnfold(line, i, seg, j);
  }

  lemma CommaSlices(line: string, i: nat, seg: string, rest: string, j: nat)
    requires i <= |line| && j == i + |seg| + 1
    requires line[i..] == seg + ", " + rest
    ensures j <= |line| && line[j..] == " " + rest
    ensures i + |seg| < |line| && line[i..j] == seg + ","
  {
    assert line[i..j] == line[i..][..|seg| + 1];
    assert line[j..] == line[i..][|seg| + 1..];
  }

  lemma CommaCut(line: string, i: nat, seg: string, j: nat)
    requires i + |seg| < |line| && ',' !in seg && j == i + |seg| + 1
    requires line[i..j] == seg + ","
    ensures StrBeforeSep(line, ",", i) == (seg, j)
  {
    SepAfter(line, ",", i, seg);
  }

  lemma CommaUnfold(line: string, i: nat, seg: string, j: nat)
    requires i + |seg| < |line| && seg != [] && j == i + |seg| + 1
    requires StrBeforeSep(line, ",", i) == (seg, j)
    ensures CommaValues(line, i) == ([Trim(seg)] + CommaValues(line, j).0, CommaValues(line, j).1)
  {
  }

  lemma CommaValuesEnd(line: string, i: nat)
    requires i <= |line| && ',' !in line[i..]
    ensures CommaValues(line, i) == ([], i)
  {
    SepAbsent(line, ",", i);
  }

  /** A well-formed header line parses into the field it was written from. */
  lemma FieldLineRoundTrip(f: Field)
    requires WellFormedField(f)
    ensures ParseFieldLine(FieldText(f)) == Success(f)
  {
    var line := FieldText(f);
    var j := |f.key| + 2;
    FieldLineKey(f);
    assert line[j..] == [] + Join(f.values, ", ");
    FieldValues(line, j, f.values);
  }

  /** The name of a written field is cut at its colon, and the one space after
      the colon is skipped. */
  lemma FieldLineKey(f: Field)
    requires WellFormedField(f)
    ensures var line := FieldText(f);
      && StrBeforeSep(line, ":", 0) == (f.key, |f.key| + 1)
      && |f.key| + 2 <= |line|
      && SkipSpace(line, |f.key| + 1) == |f.key| + 2
      && line[|f.key| + 2..] == Join(f.values, ", ")
  {
    var line := FieldText(f);
    var i := |f.key| + 1;
    FieldTextShape(f);
    SepAfter(line, ":", 0, f.key);
    SkipOneSpace(line, i);
  }

  lemma FieldTextShape(f: Field)
    requires WellFormedField(f)
    ensures var line := FieldText(f);
      && |f.key| + 2 <= |line|
      && line[0..|f.key| + 1] == f.key + ":"
      && line[|f.key| + 1] == ' '
      && line[|f.key| + 2..] == Join(f.values, ", ")
      && (|f.key| + 2 == |line| || !IsSpace(line[|f.key| + 2]))
  {
    var line := FieldText(f);
    var k := |f.key|;
    assert line[0..k + 1] == f.key + ":";
    assert line[k + 2..] == Join(f.values, ", ");
    if |f.values| > 0 {
      JoinHead(f.values, ", ");
    }
  }

  lemma JoinHead(vs: seq<string>, sep: string)
    requires |vs| >= 1 && vs[0] != []
    ensures |Join(vs, sep)| > 0 && Join(vs, sep)[0] == vs[0][0]
  {
  }

  lemma SkipOneSpace(line: string, i: nat)
    requires i < |line| && line[i] == ' '
    requires i + 1 == |line| || !IsSpace(line[i + 1])
    ensures SkipSpace(line, i) == i + 1
  {
  }

  /** The values part of a written field, read by the comma loop and then the
      remainder, gives back the values. */
  lemma FieldValues(line: string, j: nat, vs: seq<string>)
    requires j <= |line| && line[j..] == [] + Join(vs, ", ")
    requires forall k :: 0 <= k < |vs| ==> WellFormedValue(vs[k])
    ensures var (segments, e) := CommaValues(line, j);
      var rest := Trim(CStr(line[e..]));
      segments + (if rest != [] then [rest] else []) == vs
  {
    if |vs| == 0 {
      NoValues(line, j);
    } else {
      SomeValues(line, j, vs);
      var e := CommaValues(line, j).1;
      ValuesSnoc(CommaValues(line, j).0, Trim(CStr(line[e..])), vs);
    }
  }

  lemma ValuesSnoc(segments: seq<string>, rest: string, vs: seq<string>)
    requires |vs| >= 1 && segments == vs[..|vs| - 1] && rest == vs[|vs| - 1] && rest != []
    ensures segments + (if rest != [] then [rest] else []) == vs
  {
  }

  lemma NoValues(line: string, j: nat)
    requires j <= |line| && line[j..] == []
    ensures CommaValues(line, j) == ([], j) && Trim(CStr(line[j..])) == []
  {
    CommaValuesEnd(line, j);
  }

  lemma SomeValues(line: string, j: nat, vs: seq<string>)
    requires j <= |line| && line[j..] == [] + Join(vs, ", ") && |vs| >= 1
    requires forall k :: 0 <= k < |vs| ==> WellFormedValue(vs[k])
    ensures CommaValues(line, j).0 == vs[..|vs| - 1]
    ensures CommaValues(line, j).1 <= |line|
    ensures Trim(CStr(line[CommaValues(line, j).1..])) == vs[|vs| - 1]
  {
    CommaValuesJoin(line, j, [], vs);
    var pad: string := if |vs| == 1 then [] else " ";
    LastValue(pad, vs[|vs| - 1]);
  }

  lemma LastValue(pad: string, last: string)
    requires pad == [] || pad == " "
    requires WellFormedValue(last)
    ensures Trim(CStr(pad + last)) == last
  {
    assert '\0' !in pad + last by {
      assert forall c :: c in pad + last ==> c in pad || c in last;
    }
    CStrNoNul(pad + last);
    TrimPadded(pad, last);
  }

  /** The line loop over well-formed header lines and an empty line folds the
      fields in order and leaves the cursor after the empty line. */
  lemma {:induction false} HeaderLoopRoundTrip(r: HttpReq, pre: string, fs: seq<Field>, post: string)
    requires forall k :: 0 <= k < |fs| ==> WellFormedField(fs[k])
    requires r.src == pre + FormatFields(fs) + CRLF + post && r.offset == |pre|
    ensures HeaderLoop(r).Completed?
    ensures HeaderLoop(r).state == r.(offset := |pre| + |FormatFields(fs)| + 2, header := FoldFields(r.header, fs))
    decreases |fs|
  {
    if |fs| == 0 {
      assert FormatFields(fs) == [];
      HeaderLoopEmpty(r, pre, post);
      assert FoldFields(r.header, fs) == r.header;
      assert r.(offset := |pre| + 2, header := r.header) == r.(offset := |pre| + 2);
    } else {
      var line := FieldText(fs[0]);
      var pre' := pre + line + CRLF;
      var next := |pre| + |line| + 2;
      var r1 := r.(offset := next, header := FoldField(r.header, fs[0]));
      HeaderLoopCons(r, pre, fs, post, next);
      HeaderLoopRoundTrip(r1, pre', fs[1..], post);
    }
  }

  /** The first header line, folded, leaves the loop facing the rest. */
  lemma HeaderLoopCons(r: HttpReq, pre: string, fs: seq<Field>, post: string, next: nat)
    requires |fs| >= 1 && forall k :: 0 <= k < |fs| ==> WellFormedField(fs[k])
    requires r.src == pre + FormatFields(fs) + CRLF + post && r.offset == |pre|
    requires next == |pre| + |FieldText(fs[0])| + 2
    ensures HeaderLoop(r) == HeaderLoop(r.(offset := next, header := FoldField(r.header, fs[0])))
    ensures var pre' := pre + FieldText(fs[0]) + CRLF;
      && |pre'| == next
      && r.src == pre' + FormatFields(fs[1..]) + CRLF + post
      && |pre'| + |FormatFields(fs[1..])| == |pre| + |FormatFields(fs)|
      && FoldFields(r.header, fs) == FoldFields(FoldField(r.header, fs[0]), fs[1..])
  {
    FieldsShape(r.src, pre, fs, post);
    HeaderFieldStep(r, pre, fs[0], FormatFields(fs[1..]) + CRLF + post, next);
  }

  lemma HeaderLoopEmpty(r: HttpReq, pre: string, post: string)
    requires r.src == pre + [] + CRLF + post && r.offset == |pre|
    ensures HeaderLoop(r) == Completed(r.(offset := |pre| + 2))
  {
    LineCut(r.src, pre, [], post);
    HeaderEnd(r, |pre| + 2);
  }

  /** The text after `pre` is the first field line, CRLF, and the others. */
  lemma FieldsShape(src: string, pre: string, fs: seq<Field>, post: string)
    requires |fs| >= 1 && src == pre + FormatFields(fs) + CRLF + post
    ensures var line := FieldText(fs[0]);
      && src == pre + line + CRLF + (FormatFields(fs[1..]) + CRLF + post)
      && src == (pre + line + CRLF) + FormatFields(fs[1..]) + CRLF + post
      && |FormatFields(fs)| == |line| + 2 + |FormatFields(fs[1..])|
  {
    var line := FieldText(fs[0]);
    var tail := FormatFields(fs[1..]);
    assert FormatFields(fs) == line + CRLF + tail;
    SeqAssoc(pre, line + CRLF, tail, CRLF + post);
    SeqAssoc(pre, line, CRLF, tail + CRLF + post);
  }

  lemma SeqAssoc(a: string, b: string, c: string, d: string)
    ensures a + (b + c) + d == a + b + (c + d) == (a + b) + c + d
  {
  }

  /** A written header line holds no CR and is not empty. */
  lemma FieldNoCR(f: Field)
    requires WellFormedField(f)
    ensures '\r' !in FieldText(f) && FieldText(f) != []
  {
    JoinNoChar(f.values, ", ", '\r');
    var line := FieldText(f);
    assert forall c :: c in line ==> c in f.key || c in ": " || c in Join(f.values, ", ");
  }

  /** The line after `pre` is cut at its CRLF. */
  lemma LineCut(src: string, pre: string, line: string, rest: string)
    requires src == pre + line + CRLF + rest && '\r' !in line
    ensures LineAt(src, |pre|) == (line, |pre| + |line| + 2)
  {
    assert src[|pre|..|pre| + |line| + 2] == line + CRLF;
    SepAfter(src, CRLF, |pre|, line);
  }

  /** One well-formed header line is parsed and folded into the header. */
  lemma HeaderFieldStep(r: HttpReq, pre: string, f: Field, rest: string, next: nat)
    requires WellFormedField(f)
    requires r.src == pre + FieldText(f) + CRLF + rest && r.offset == |pre|
    requires next == |pre| + |FieldText(f)| + 2
    ensures HeaderLoop(r) == HeaderLoop(r.(offset := next, header := FoldField(r.header, f)))
  {
    var line := FieldText(f);
    assert LineAt(r.src, r.offset) == (line, next) && line != [] by {
      FieldNoCR(f);
      LineCut(r.src, pre, line, rest);
    }
    assert ParseFieldLine(line) == Success(f) by {
      FieldLineRoundTrip(f);
    }
    HeaderStep(r, line, f, next);
  }

  lemma HeaderStep(r: HttpReq, line: string, f: Field, next: nat)
    requires r.Valid() && LineAt(r.src, r.offset) == (line, next)
    requires line != [] && ParseFieldLine(line) == Success(f)
    ensures HeaderLoop(r) == HeaderLoop(r.(offset := next, header := FoldField(r.header, f)))
  {
  }

  lemma HeaderEnd(r: HttpReq, next: nat)
    requires r.Valid() && LineAt(r.src, r.offset) == ([], next)
    ensures HeaderLoop(r) == Completed(r.(offset := next))
  {
  }

  lemma {:induction false} JoinNoChar(vs: seq<string>, sep: string, c: char)
    requires c !in sep
    requires forall k :: 0 <= k < |vs| ==> c !in vs[k]
    ensures c !in Join(vs, sep)
    decreases |vs|
  {
    if |vs| > 1 {
      JoinNoChar(vs[1..], sep, c);
    }
  }

  /** The first header line, folded, leaves the loop facing the rest,
      whatever follows the lines. */
  lemma HeaderLoopAhead(r: HttpReq, pre: string, fs: seq<Field>, post: string, next: nat)
    requires |fs| >= 1 && forall k :: 0 <= k < |fs| ==> WellFormedField(fs[k])
    requires r.src == pre + FormatFields(fs) + post && r.offset == |pre|
    requires next == |pre| + |FieldText(fs[0])| + 2
    ensures HeaderLoop(r) == HeaderLoop(r.(offset := next, header := FoldField(r.header, fs[0])))
    ensures var pre' := pre + FieldText(fs[0]) + CRLF;
      && |pre'| == next
      && r.src == pre' + FormatFields(fs[1..]) + post
      && |pre'| + |FormatFields(fs[1..])| == |pre| + |FormatFields(fs)|
      && FoldFields(r.header, fs) == FoldFields(FoldField(r.header, fs[0]), fs[1..])
      && (forall k :: 0 <= k < |fs[1..]| ==> WellFormedField(fs[1..][k]))
  {
    FieldsAhead(r.src, pre, fs, post);
    HeaderFieldStep(r, pre, fs[0], FormatFields(fs[1..]) + post, next);
  }

  /** The text after `pre` is the first field line, CRLF, and the others,
      followed by anything. */
  lemma FieldsAhead(src: string, pre: string, fs: seq<Field>, post: string)
    requires |fs| >= 1 && src == pre + FormatFields(fs) + post
    ensures var line := FieldText(fs[0]);
      && src == pre + line + CRLF + (FormatFields(fs[1..]) + post)
      && src == (pre + line + CRLF) + FormatFields(fs[1..]) + post
      && |FormatFields(fs)| == |line| + 2 + |FormatFields(fs[1..])|
  {
    var line := FieldText(fs[0]);
    var tail := FormatFields(fs[1..]);
    assert FormatFields(fs) == line + CRLF + tail;
    SeqAssoc(pre, line + CRLF, tail, post);
    SeqAssoc(pre, line, CRLF, tail + post);
  }

  /** The line loop reaches a refused line after well-formed ones and throws. */
  lemma {:induction false} HeaderLoopRefuses(r: HttpReq, pre: string, fs: seq<Field>, bad: string, post: string)
    requires forall k :: 0 <= k < |fs| ==> WellFormedField(fs[k])
    requires bad != [] && '\r' !in bad && ParseFieldLine(bad).Failure?
    requires r.src == pre + FormatFields(fs) + (bad + CRLF + post) && r.offset == |pre|
    ensures HeaderLoop(r).Threw?
    decreases |fs|
  {
    if |fs| == 0 {
      assert pre + FormatFields(fs) == pre;
      HeaderLoopRefusesHere(r, pre, bad, post);
    } else {
      var next := |pre| + |FieldText(fs[0])| + 2;
      HeaderLoopAhead(r, pre, fs, bad + CRLF + post, next);
      HeaderLoopRefuses(r.(offset := next, header := FoldField(r.header, fs[0])),
        pre + FieldText(fs[0]) + CRLF, fs[1..], bad, post);
    }
  }

  lemma HeaderLoopRefusesHere(r: HttpReq, pre: string, bad: string, post: string)
    requires bad != [] && '\r' !in bad && ParseFieldLine(bad).Failure?
    requires r.src == pre + (bad + CRLF + post) && r.offset == |pre|
    ensures HeaderLoop(r).Threw?
  {
    assert r.src == pre + bad + CRLF + post;
    LineCut(r.src, pre, bad, post);
  }

  /** A header line the field parser refuses, after any number of well-formed
      ones, makes `parse` fail with status 400: a name that is empty or holds
      white space is rejected inside a whole request, not only on its own. */
  lemma MalformedFieldRejected(m: Method, uri: string, version: string, fs: seq<Field>, bad: string, post: string)
    requires WellFormedToken(uri) && WellFormedToken(version)
    requires forall k :: 0 <= k < |fs| ==> WellFormedField(fs[k])
    requires bad != [] && '\r' !in bad && ParseFieldLine(bad).Failure?
    ensures var res := Parse(NewHttpReq(FormatRequestLine(m, uri, version) + FormatFields(fs) + bad + CRLF + post));
      !res.0 && res.1.status == 400
  {
    var startLine := FormatRequestLine(m, uri, version);
    var fields := FormatFields(fs);
    var src := startLine + fields + bad + CRLF + post;
    RefusedShape(startLine, fields, bad, post);
    RequestLineRoundTrip(m, uri, version, fields + bad + CRLF + post);
    var r1 := ParseStartLine(NewHttpReq(src)).state;
    HeaderLoopRefuses(r1, startLine, fs, bad, post);
    assert ParseHeader(r1).Threw?;
  }

  lemma RefusedShape(a: string, b: string, c: string, d: string)
    ensures a + b + c + CRLF + d == a + (b + c + CRLF + d)
    ensures a + b + c + CRLF + d == a + b + (c + CRLF + d)
  {
  }

  /** A header line whose name, the text before its first colon, is empty or
      holds white space is refused; so is a line without a colon. */
  lemma BadNameRefused(key: string, rest: string)
    requires ':' !in key && (key == [] || HasSpace(key))
    ensures ParseFieldLine(key + ":" + rest).Failure?
    ensures ParseFieldLine(key + ":" + rest).error == MalformedHeaderField(key)
  {
    var line := key + ":" + rest;
    assert line[0..|key| + 1] == key + ":";
    SepAfter(line, ":", 0, key);
  }

  lemma NoColonRefused(line: string)
    requires ':' !in line
    ensures ParseFieldLine(line).Failure?
  {
    SepAbsent(line, ":", 0);
  }

  /** A request line built from a method name and two space-free tokens is
      read back into that method and those tokens. */
  lemma RequestLineRoundTrip(m: Method, uri: string, version: string, rest: string)
    requires WellFormedToken(uri) && WellFormedToken(version)
    ensures var r := NewHttpReq(FormatRequestLine(m, uri, version) + rest);
      && ParseStartLine(r).Completed?
      && ParseStartLine(r).state == r.(offset := |FormatRequestLine(m, uri, version)|,
        requestMethod := Some(m), uri := uri, version := version)
  {
    var line := MethodName(m) + " " + uri + " " + version;
    var src := FormatRequestLine(m, uri, version) + rest;
    RequestLineText(m, uri, version, rest);
    LineCut(src, [], line, rest);
    RequestLineTokens(m, uri, version);
    StartLineStep(NewHttpReq(src), line, |FormatRequestLine(m, uri, version)|, m, uri, version);
  }

  lemma RequestLineText(m: Method, uri: string, version: string, rest: string)
    requires WellFormedToken(uri) && WellFormedToken(version)
    ensures var line := MethodName(m) + " " + uri + " " + version;
      && FormatRequestLine(m, uri, version) + rest == [] + line + CRLF + rest
      && |FormatRequestLine(m, uri, version)| == |line| + 2
      && '\r' !in line && line != [] && line[0] != ' '
  {
    var line := MethodName(m) + " " + uri + " " + version;
    assert forall c :: c in line ==> c in MethodName(m) || c == ' ' || c in uri || c in version;
  }

  /** The request line splits at its two spaces into name, URI and version. */
  lemma RequestLineTokens(m: Method, uri: string, version: string)
    requires WellFormedToken(uri) && WellFormedToken(version)
    ensures Split(MethodName(m) + " " + uri + " " + version, ' ') == [MethodName(m), uri, version]
  {
    var tokens := [MethodName(m), uri, version];
    JoinThree(tokens, " ");
    SplitJoin(tokens, ' ');
  }

  lemma StartLineStep(r: HttpReq, line: string, next: nat, m: Method, uri: string, version: string)
    requires r.Valid() && r.requestMethod.None? && LineAt(r.src, r.offset) == (line, next)
    requires line != [] && line[0] != ' ' && Split(line, ' ') == [MethodName(m), uri, version]
    ensures ParseStartLine(r).Completed?
    ensures ParseStartLine(r).state == r.(offset := next, requestMethod := Some(m), uri := uri, version := version)
  {
    assert ScanMethods(MethodName(m), 0) == Some(MethodIndex(m));
  }

  /** The header phase over well-formed lines that name a host: the lines are
      folded, the cursor moves past the empty line, and the chunked flag is
      raised exactly when a `Transfer-Encoding` line is present. */
  lemma HeaderPhaseRoundTrip(r: HttpReq, pre: string, fs: seq<Field>, post: string)
    requires forall k :: 0 <= k < |fs| ==> WellFormedField(fs[k])
    requires NamesKey(fs, "Host") && |ValuesFor(fs, "Host")| > 0
    requires r.src == pre + FormatFields(fs) + CRLF + post && r.offset == |pre|
    requires r.header == map[] && !r.isChunked
    ensures ParseHeader(r).Completed?
    ensures ParseHeader(r).state == r.(offset := |pre| + |FormatFields(fs)| + 2,
      header := FoldFields(map[], fs), isChunked := NamesKey(fs, "Transfer-Encoding"))
  {
    HeaderLoopRoundTrip(r, pre, fs, post);
    FoldFieldsValues(map[], fs, "Host");
    FoldFieldsValues(map[], fs, "Transfer-Encoding");
  }

  /** The body phase at the start of a written body: nothing for GET and
      DELETE, and for POST the text before the final CRLF. */
  lemma BodyPhaseRoundTrip(r: HttpReq, m: Method, pre: string, body: string)
    requires r.src == pre + FormatBody(m, body) && r.offset == |pre|
    requires r.requestMethod == Some(m) && (m != Post ==> body == [] && r.body == [])
    ensures ParseBody(r).Completed?
    ensures ParseBody(r).state == r.(body := body)
  {
    if m == Post {
      PostTail(r.src, pre, body);
      var b := ParseBody(r).state.body;
      CutCRLF(b, body, r.src[|r.src| - 1]);
    } else {
      assert r.(body := body) == r;
    }
  }

  lemma PostTail(src: string, pre: string, body: string)
    requires src == pre + body + CRLF
    ensures |src| >= 2 && |pre| <= |src| - 2
    ensures src[|src| - 2] == '\r' && src[|src| - 1] == '\n'
    ensures src[|pre|..] == body + CRLF
  {
    assert src[|pre|..] == body + CRLF;
  }

  lemma CutCRLF(b: string, body: string, c: char)
    requires b + "\r" + [c] == body + CRLF
    ensures b == body
  {
    assert b == (b + "\r" + [c])[..|b|];
    assert body == (body + CRLF)[..|body|];
  }

  /** Parsing a well-formed request recovers its method, URI, version and
      body, folds its header lines, and raises the chunked flag exactly when a
      `Transfer-Encoding` line is present. */
  lemma RequestRoundTrip(m: Method, uri: string, version: string, fs: seq<Field>, body: string)
    requires WellFormedToken(uri) && WellFormedToken(version)
    requires forall k :: 0 <= k < |fs| ==> WellFormedField(fs[k])
    requires NamesKey(fs, "Host") && |ValuesFor(fs, "Host")| > 0
    requires m != Post ==> body == []
    ensures var res := Parse(NewHttpReq(FormatRequest(m, uri, version, fs, body)));
      && res.0
      && res.1.requestMethod == Some(m) && res.1.uri == uri && res.1.version == version
      && res.1.header == FoldFields(map[], fs)
      && res.1.body == body
      && (res.1.isChunked <==> NamesKey(fs, "Transfer-Encoding"))
      && res.1.status == 0
  {
    var startLine := FormatRequestLine(m, uri, version);
    var fields := FormatFields(fs);
    var tail := FormatBody(m, body);
    var src := FormatRequest(m, uri, version, fs, body);
    var r0 := NewHttpReq(src);
    RequestShape(startLine, fields, tail);
    RequestLineRoundTrip(m, uri, version, fields + CRLF + tail);
    var r1 := ParseStartLine(r0).state;
    HeaderPhaseRoundTrip(r1, startLine, fs, tail);
    var r2 := ParseHeader(r1).state;
    BodyPhaseRoundTrip(r2, m, startLine + fields + CRLF, body);
  }

  lemma RequestShape(startLine: string, fields: string, tail: string)
    ensures startLine + fields + CRLF + tail == startLine + (fields + CRLF + tail)
    ensures startLine + fields + CRLF + tail == (startLine + fields + CRLF) + tail
    ensures |startLine + fields + CRLF| == |startLine| + |fields| + 2
  {
  }
}

=== FILE: strings.dfy ===
/** The string helpers the request parser relies on (`strBeforeSep`, `split`,
    `strtrim`, `hasSpace`) and the pieces of `std::string` behaviour the model
    needs (`find`, `find_last_of`, construction from a C string). The helpers'
    own source is not part of this model; each is given here an explicit
    definition and a contract that pins it down. */
module Strings {
  import opened Outcomes

  /** The line terminator of HTTP/1.1 messages. */
  const CRLF: string := "\r\n"

  /** `std::isspace` in the "C" locale: space, and `\t` `\n` `\v` `\f` `\r`. */
  predicate IsSpace(c: char)
  {
    c == ' ' || ('\t' <= c <= '\r')
  }

  /** `hasSpace`: some character of `s` is white space. */
  predicate HasSpace(s: string)
  {
    exists i :: 0 <= i < |s| && IsSpace(s[i])
  }

  /** `sep` occurs in `s` starting at position `i`. */
  predicate MatchAt(s: string, sep: string, i: int)
  {
    0 <= i && i + |sep| <= |s| && s[i..i + |sep|] == sep
  }

  /** `s.find(sep, off)`: the first position at or after `off` where `sep`
      occurs, or `None` for `npos` (see `FindFromSpec`). */
  function FindFrom(s: string, sep: string, off: nat): (r: Option<nat>)
    ensures r.Some? ==> off <= r.value && r.value + |sep| <= |s|
    decreases |s| - off
  {
    if off + |sep| > |s| then None
    else if s[off..off + |sep|] == sep then Some(off)
    else FindFrom(s, sep, off + 1)
  }

  /** `find` reports an occurrence with none before it, and `npos` only when
      `sep` does not occur at or after `off`. */
  lemma {:induction false} FindFromSpec(s: string, sep: string, off: nat)
    ensures var r := FindFrom(s, sep, off);
      && (r.Some? ==> MatchAt(s, sep, r.value) && forall j :: off <= j < r.value ==> !MatchAt(s, sep, j))
      && (r.None? ==> forall j :: off <= j ==> !MatchAt(s, sep, j))
    decreases |s| - off
  {
    if off + |sep| <= |s| && s[off..off + |sep|] != sep {
      FindFromSpec(s, sep, off + 1);
    }
  }

  /** `strBeforeSep(s, sep, off)`: the text from `off` up to the next `sep`,
      with the cursor moved past that `sep`; the empty text and an unmoved
      cursor when no `sep` follows `off` (see `StrBeforeSepSpec`). Returns
      (text, new cursor). */
  function StrBeforeSep(s: string, sep: string, off: nat): (r: (string, nat))
    requires off <= |s| && |sep| > 0
    ensures off <= r.1 <= |s|
    ensures r.0 != [] ==> r.1 > off
  {
    match FindFrom(s, sep, off)
    case Some(i) => (s[off..i], i + |sep|)
    case None => ([], off)
  }

  /** The text `strBeforeSep` returns is followed by the first `sep` after
      `off`, and the cursor stays put exactly when there is none. */
  lemma StrBeforeSepSpec(s: string, sep: string, off: nat)
    requires off <= |s| && |sep| > 0
    ensures var r := StrBeforeSep(s, sep, off);
      && (r.1 == off ==> r.0 == [] && forall j :: off <= j ==> !MatchAt(s, sep, j))
      && (r.1 > off ==> r.1 == off + |r.0| + |sep| && s[off..r.1] == r.0 + sep)
      && (r.1 > off ==> forall j :: off <= j < off + |r.0| ==> !MatchAt(s, sep, j))
  {
    FindFromSpec(s, sep, off);
  }

  /** When `seg` and then `sep` follow `off`, and `seg` cannot start a `sep`,
      `strBeforeSep` returns `seg` and moves the cursor past that `sep`. */
  lemma {:induction false} SepAfter(s: string, sep: string, off: nat, seg: string)
    requires |sep| > 0 && off + |seg| + |sep| <= |s|
    requires s[off..off + |seg| + |sep|] == seg + sep
    requires sep[0] !in seg
    ensures StrBeforeSep(s, sep, off) == (seg, off + |seg| + |sep|)
  {
    var m := off + |seg|;
    var w := s[off..off + |seg| + |sep|];
    assert s[m..m + |sep|] == w[|seg|..];
    forall k | off <= k < m
      ensures !MatchAt(s, sep, k)
    {
      assert s[k] == w[k - off] == seg[k - off];
    }
    FindFromFirst(s, sep, off, m);
    assert s[off..m] == w[..|seg|];
  }

  /** `find` stops at the first occurrence at or after `off`. */
  lemma {:induction false} FindFromFirst(s: string, sep: string, off: nat, m: nat)
    requires off <= m && MatchAt(s, sep, m)
    requires forall k :: off <= k < m ==> !MatchAt(s, sep, k)
    ensures FindFrom(s, sep, off) == Some(m)
    decreases m - off
  {
    if off < m {
      assert !MatchAt(s, sep, off);
      FindFromFirst(s, sep, off + 1, m);
    }
  }

  /** With no `sep` character left after `off`, `strBeforeSep` finds nothing. */
  lemma SepAbsent(s: string, sep: string, off: nat)
    requires |sep| > 0 && off <= |s|
    requires sep[0] !in s[off..]
    ensures StrBeforeSep(s, sep, off) == ([], off)
  {
    forall k | off <= k
      ensures !MatchAt(s, sep, k)
    {
      if k + |sep| <= |s| {
        assert s[k..k + |sep|][0] == s[off..][k - off];
      }
    }
    FindFromNone(s, sep, off);
  }

  /** `find` reports `npos` when no occurrence starts at or after `off`. */
  lemma {:induction false} FindFromNone(s: string, sep: string, off: nat)
    requires forall k :: off <= k ==> !MatchAt(s, sep, k)
    ensures FindFrom(s, sep, off) == None
    decreases |s| - off
  {
    if off + |sep| <= |s| {
      assert !MatchAt(s, sep, off);
      FindFromNone(s, sep, off + 1);
    }
  }

  /** `std::string(&s[0])`: the text up to the first NUL character. */
  function CStr(s: string): (r: string)
    ensures '\0' !in r
    ensures |r| <= |s| && r == s[..|r|]
    ensures |r| < |s| ==> s[|r|] == '\0'
  {
    if |s| == 0 || s[0] == '\0' then [] else [s[0]] + CStr(s[1..])
  }

  /** `s.find_last_of(c)`: the last position holding `c`, or `None` for `npos`. */
  function FindLastOf(s: string, c: char): (r: Option<nat>)
    ensures r.Some? ==> r.value < |s| && s[r.value] == c
    ensures r.Some? ==> forall j :: r.value < j < |s| ==> s[j] != c
    ensures r.None? <==> c !in s
  {
    if |s| == 0 then None
    else if s[|s| - 1] == c then Some(|s| - 1)
    else FindLastOf(s[..|s| - 1], c)
  }

  lemma CStrNoNul(s: string)
    requires '\0' !in s
    ensures CStr(s) == s
  {
  }

  /** No space at either end of `v`. */
  predicate IsTrimmed(v: string)
  {
    v == [] || (v[0] != ' ' && v[|v| - 1] != ' ')
  }

  predicate AllSpaces(s: string)
  {
    forall i :: 0 <= i < |s| ==> s[i] == ' '
  }

  function TrimLeft(s: string): (r: string)
    ensures |r| <= |s| && r == s[|s| - |r|..]
    ensures AllSpaces(s[..|s| - |r|])
    ensures r == [] || r[0] != ' '
  {
    if |s| > 0 && s[0] == ' ' then TrimLeft(s[1..]) else s
  }

  function TrimRight(s: string): (r: string)
    ensures |r| <= |s| && r == s[..|r|]
    ensures AllSpaces(s[|r|..])
    ensures r == [] || r[|r| - 1] != ' '
  {
    if |s| > 0 && s[|s| - 1] == ' ' then TrimRight(s[..|s| - 1]) else s
  }

  /** `strtrim(s, " ")`: `s` without its leading and trailing spaces. */
  function Trim(s: string): (r: string)
    ensures IsTrimmed(r)
  {
    TrimRight(TrimLeft(s))
  }

  /** Trimming leaves nothing exactly when the text is blank. */
  lemma TrimBlank(s: string)
    ensures Trim(s) == [] <==> AllSpaces(s)
  {
    var l := TrimLeft(s);
    var r := TrimRight(l);
    if r == [] {
      assert l == [];
      assert s[..|s| - |l|] == s;
    }
  }

  /** Trimming spaces off a padded word gives back the word. */
  lemma {:induction false} TrimPadded(pad: string, v: string)
    requires AllSpaces(pad) && v != [] && IsTrimmed(v)
    ensures Trim(pad + v) == v
  {
    TrimLeftPadded(pad, v);
  }

  lemma {:induction false} TrimLeftPadded(pad: string, v: string)
    requires AllSpaces(pad) && v != [] && v[0] != ' '
    ensures TrimLeft(pad + v) == v
    decreases |pad|
  {
    if pad == [] {
      assert pad + v == v;
    } else {
      assert (pad + v)[1..] == pad[1..] + v;
      TrimLeftPadded(pad[1..], v);
    }
  }

  /** `split(s, c)`: the fields of `s` between occurrences of `c`, empty
      fields included, so that `n` separators give `n + 1` fields. */
  function Split(s: string, c: char): (r: seq<string>)
    ensures |r| >= 1
    ensures forall k :: 0 <= k < |r| ==> c !in r[k]
  {
    if |s| == 0 then [[]]
    else
      var rest := Split(s[1..], c);
      if s[0] == c then [[]] + rest else [[s[0]] + rest[0]] + rest[1..]
  }

  /** The inverse of splitting: the parts with `sep` between neighbours. */
  function Join(parts: seq<string>, sep: string): string
  {
    if |parts| == 0 then []
    else if |parts| == 1 then parts[0]
    else parts[0] + sep + Join(parts[1..], sep)
  }

  lemma JoinThree(parts: seq<string>, sep: string)
    requires |parts| == 3
    ensures Join(parts, sep) == parts[0] + sep + parts[1] + sep + parts[2]
  {
    assert parts[1..][1..] == [parts[2]];
    assert Join(parts[1..], sep) == parts[1] + sep + parts[2];
  }

  function CountChar(s: string, c: char): nat
  {
    if |s| == 0 then 0 else (if s[0] == c then 1 else 0) + CountChar(s[1..], c)
  }

  /** Joining the fields of a split with the separator restores the text. */
  lemma {:induction false} JoinSplit(s: string, c: char)
    ensures Join(Split(s, c), [c]) == s
  {
    if |s| > 0 {
      var rest := Split(s[1..], c);
      JoinSplit(s[1..], c);
      if s[0] == c {
        assert s == [c] + s[1..];
      } else {
        if |rest| == 1 {
          assert s == [s[0]] + s[1..];
        } else {
          assert ([[s[0]] + rest[0]] + rest[1..])[1..] == rest[1..];
          assert Join(rest, [c]) == rest[0] + [c] + Join(rest[1..], [c]);
        }
      }
    }
  }

  /** Splitting a join of separator-free parts gives back the parts. */
  lemma {:induction false} SplitJoin(parts: seq<string>, c: char)
    requires |parts| >= 1
    requires forall k :: 0 <= k < |parts| ==> c !in parts[k]
    ensures Split(Join(parts, [c]), c) == parts
    decreases |parts|, |parts[0]|
  {
    if |parts| == 1 {
      SplitNoSep(parts[0], c);
    } else if parts[0] == [] {
      var s := Join(parts, [c]);
      assert s == [c] + Join(parts[1..], [c]);
      assert s[1..] == Join(parts[1..], [c]);
      SplitJoin(parts[1..], c);
      assert parts == [[]] + parts[1..];
    } else {
      var s := Join(parts, [c]);
      var p0 := parts[0];
      var shorter := [p0[1..]] + parts[1..];
      assert s == [p0[0]] + Join(shorter, [c]) by {
        assert Join(shorter, [c]) == p0[1..] + [c] + Join(parts[1..], [c]);
        assert p0 == [p0[0]] + p0[1..];
      }
      assert s[1..] == Join(shorter, [c]);
      assert p0[0] != c by { assert p0[0] in p0; }
      assert c !in shorter[0] by { assert forall x :: x in p0[1..] ==> x in p0; }
      SplitJoin(shorter, c);
      assert parts == [[p0[0]] + shorter[0]] + shorter[1..];
    }
  }

  lemma {:induction false} SplitNoSep(s: string, c: char)
    requires c !in s
    ensures Split(s, c) == [s]
  {
    if |s| > 0 {
      assert c !in s[1..] by { assert forall x :: x in s[1..] ==> x in s; }
      SplitNoSep(s[1..], c);
      assert s == [s[0]] + s[1..];
    }
  }

  /** A split yields one more field than there are separators. */
  lemma {:induction false} SplitCount(s: string, c: char)
    ensures |Split(s, c)| == CountChar(s, c) + 1
  {
    if |s| > 0 {
      SplitCount(s[1..], c);
    }
  }
}
